=== FILE: README.md ===
# Document and viewport engine of a terminal text editor

This Dafny project models the core of a small terminal text editor written in
Rust: the grapheme line model, the document buffer, the caret and scroll state
machine, and the command decoder. It proves properties of that model.

- **Line model** (module `View`, `view.dfy`; from `src/view.rs`). A line is a
  sequence of fragments. Each fragment is one grapheme cluster with a width
  class (`Half` = one cell, `Full` = two cells) and an optional glyph drawn in
  its place. The module covers:
  - building a line from text (`From<&str> for Line`) and displaying it back;
  - the character-level edits `insert_char`, `delete`, `split` and `append`;
  - the horizontal cell window used when a line is drawn
    (`get_visible_graphemes`). It is modelled as a list of pieces: either a
    fragment drawn whole, or the ellipsis `⋯` drawn for a clipped fragment.
- **Unicode** (module `Segmentation`). Grapheme segmentation, display width,
  white space and control characters come from foreign crates. They are
  parameters of the model, bundled in the `Unicode` record. The only law
  assumed of them is `ValidSegmentation`: clusters are non-empty and
  concatenate back to the input. It is assumed only where a lemma states it
  as a hypothesis. `AsciiUnicode` is one instance that satisfies the law.
- **Buffer** (module `TextBuffer`, `buffer.dfy`; from `src/editor/buffer.rs`).
  A buffer is a sequence of lines. `new` splits the file text with Rust's
  `str::lines`, modelled as `StrLines`. `line_count` is `LineCount`, the
  number of lines. `new_line` inserts a line, and `Default` gives a
  one-line buffer.
- **Session state machine** (module `TerminalView`, `terminal.dfy`; from
  `src/view/terminal.rs`). A session is an immutable `Terminal` value holding
  the buffer, the dirty flag `needsRender`, the viewport size, the caret
  location and the scroll offset. Each handler returns the next value:
  - caret moves, scrolling, typing, Backspace/Delete/Enter, resize and
    command dispatch;
  - a handler that can panic returns a `Step`: either `Running` with the next
    state, or `Panicked`;
  - `render` returns the rows it would print, one string per screen row,
    instead of drawing them.
- **Command decoder** (module `Commands`, `terminal_command.dfy`; from
  `src/view/terminal_command.rs`). A terminal event is a small datatype that
  keeps only the fields the decoder reads. `Decode` is the `TryFrom`
  conversion into editor commands.

Integers are unbounded `nat`s. `usize` arithmetic is written out where the
code depends on it:
- `SatSub` is `saturating_sub`.
- `GraphemeWidth.SaturatingAdd` clamps at `usize::MAX`.
- `EndColumnAsWritten` shows the wrap-around of an unchecked `len() - 1`.

Three behaviours of the code worth noting:
- **Empty file.** `Buffer::new("")` has no lines at all, because `str::lines`
  yields nothing for the empty string.
- **Backspace joining lines.** The caret goes to the end of the joined line
  (`src/view/terminal.rs:270-274`).
- **Space characters.** A cluster of positive width made only of white space
  is drawn as `␣`, so a plain space is drawn as `␣` too.

## Model

| member | source | states |
|---|---|---|
| View.ToPosition | src/view.rs:44-51 | Each screen coordinate is the location minus the scroll offset, saturating at 0. Where the location is at or past the offset, position plus offset gives back the location. |
| View.GraphemeWidth.SaturatingAdd | src/view.rs:250-257 | The next cell after a grapheme is 1 or 2 cells further on, and never past `usize::MAX`, where it clamps. |
| View.WidthBounds | src/view.rs:83-95 | For any fragments: count ≤ cell width ≤ 2·count. The width equals the count exactly when every fragment is Half, and equals twice the count exactly when every fragment is Full. |
| View.GraphemesWidth | src/view.rs:83-95 | `graphemes_width` lies between `grapheme_count` (GraphemeCount, the number of fragments) and twice that count. It equals the count exactly when every fragment is Half, and twice the count exactly when every fragment is Full. |
| View.Classify | src/view.rs:173-225 | The fragment keeps its cluster. A tab is drawn as `' '`, a blank cluster of positive width as `'␣'`, and a lone zero-width control character as `'▯'`; each of these is Half, and these are the only clusters replaced. Any other cluster is Half exactly when its width is 0 or 1. |
| View.FromStr | src/view.rs:169-230 | One fragment per grapheme cluster of the text, in input order, and every fragment obeys the substitution rules. |
| View.DisplayFromStr | src/view.rs:232-242 | Round trip: `Display for Line` (ToString, the fragments' graphemes concatenated) of the line built from `s` gives `s` back. |
| View.FromEmpty | src/view.rs:169-230 | The empty text builds the line with no fragments. |
| View.InsertChar | src/view.rs:127-139 | The new fragments are the clusters of the rebuilt text, and each obeys the substitution rules. Under the segmentation law the displayed text is the first `k` graphemes, then `c`, then the rest, where `k = min(at, count)`; an index at or past the end appends `c`. |
| View.Delete | src/view.rs:145-156 | The new fragments are the clusters of the remaining text, and each obeys the substitution rules. Under the segmentation law the displayed text is the old text without grapheme `at`, and it is unchanged when `at ≥ count`. |
| View.InsertThenDelete | src/view.rs:127-156 | Deleting at `at` after inserting `c` at `at` restores the text, whenever re-segmenting keeps every old grapheme and makes `c` a cluster of its own. |
| View.Append | src/view.rs:141-143 | Counts, cell widths and texts add up, and the result is the first line's fragments followed by the other line's, both unchanged. |
| View.Split | src/view.rs:158-166 | Past the end, the line is unchanged and the split-off line is empty. Otherwise the kept part has exactly `at` fragments, and appending the split-off part gives back the original line. |
| View.GetVisibleGraphemes | src/view.rs:97-125 | (corrected) An empty or inverted range draws nothing. |
| View.VisibleIsWindow | src/view.rs:103-122 | (corrected) The drawn pieces equal the reference window, which works on absolute cell positions: a fragment ending at or before the window's start is dropped, one that sticks out of either edge becomes `⋯`, and one wholly inside is drawn whole, in order. |
| View.VisibleFits | src/view.rs:97-125 | (corrected) What is drawn for a range takes at most `end - start` cells. |
| View.WholeLineVisible | src/view.rs:97-125 | The range `0..graphemes_width` draws every fragment whole. |
| View.HalfWidthWindow | src/view.rs:97-125 | (corrected) On a line of half-width graphemes, the range `lo..hi` draws exactly graphemes `lo` to `hi`, as far as the line reaches, with no ellipsis. |
| View.GetVisibleGraphemesAsWritten | src/view.rs:106-110 | As written, too, an empty or inverted range draws nothing. |
| View.AsWrittenOverdraws | src/view.rs:106-110 | As written, the line "ab" in the range `0..1` draws "a⋯", which is two cells in a one-cell range. The corrected test draws "a". |
| Segmentation.AsciiUnicodeValid | src/view.rs:171-172 | Segmenting every character on its own obeys the concatenation law, so the law is satisfiable. |
| Segmentation.SegmentEmpty | src/view.rs:171-172 | Under the concatenation law, the empty text has no clusters. |
| TextBuffer.StrLines | src/editor/buffer.rs:10 | No piece of `str::lines` contains a '\n'. |
| TextBuffer.StrLinesCount | src/editor/buffer.rs:10 | There is one piece per '\n', plus one for a final line without '\n'. |
| TextBuffer.StrLinesTerminated | src/editor/buffer.rs:10 | Round trip: lines joined with a '\n' after each split back into the same lines, provided no line ends in '\r'. |
| TextBuffer.StrLinesCrlfTerminated | src/editor/buffer.rs:10 | Round trip: any lines without '\n', each followed by "\r\n", split back into the same lines. |
| TextBuffer.New | src/editor/buffer.rs:9-16 | There is one line per piece of `str::lines`, each built from its piece, so `line_count` (LineCount) is the number of pieces, and the empty text gives no lines. |
| TextBuffer.NewDisplaysLines | src/editor/buffer.rs:9-12 | Each line of a new buffer displays as its piece of the text. |
| TextBuffer.NewFromTerminatedLines | src/editor/buffer.rs:9-12 | A file of '\n'-terminated lines loads as exactly those lines. |
| TextBuffer.NewLine | src/editor/buffer.rs:19-27 | The count grows by one. When line `i` exists, lines 0..i are kept, the new line is at `i+1`, and later lines shift down by one. Otherwise the new line is appended. The inserted line is the given one, or the line built from "". |
| TextBuffer.NewLineUndo | src/editor/buffer.rs:19-27 | Removing the inserted line gives back the old buffer, and with no line given the inserted line is empty. |
| TextBuffer.Default | src/editor/buffer.rs:30-36 | Exactly one line, built from "Hello, World!". |
| TextBuffer.DefaultDisplays | src/editor/buffer.rs:30-36 | The default buffer's line displays as "Hello, World!". |
| Commands.Decode | src/view/terminal_command.rs:38-70 | Key and resize events decode to `Ok`. Every other event is an error that carries the event. |
| Commands.AsChar | src/view/terminal.rs:553 | A key code has a character exactly when it is `Char(c)`, and the character is `c`. |
| Commands.DecodeEncode | src/view/terminal_command.rs:38-70 | Every command that has an event decodes back from it. The commands without an event (F keys outside 1..12, non-character `OrdinaryChar`, sizes that do not fit in `u16`) are decoded from no event. |
| Commands.DecodeQuit | src/view/terminal_command.rs:51 | An event decodes to `Quit` exactly when it is Control+'q'. |
| Commands.DecodeOrdinaryChar | src/view/terminal_command.rs:51-60 | `Char(c)` decodes to `OrdinaryChar(Char(c))` exactly when it is not Control+'q'. This includes a plain 'q' and other modified characters. |
| Commands.DecodeFunctionKey | src/view/terminal_command.rs:52-61 | `F(n)` decodes to `FunctionKey(n)` exactly when 1 ≤ n ≤ 12. Any other `F(n)` decodes to `Unknown`. |
| Commands.DecodeMoveCaret | src/view/terminal_command.rs:43-50 | An event decodes to `MoveCaret(d)` exactly when it is the key named after `d`, whatever the modifiers. |
| Commands.DecodeSpecialKey | src/view/terminal_command.rs:53-59 | An event decodes to `SpecialKey(k)` exactly when it is the key of the same name. |
| Commands.DecodeResize | src/view/terminal_command.rs:63-67 | A resize event decodes to `Resize` with the columns as width and the rows as height, and no other event decodes to a resize. |
| TerminalView.New | src/view/terminal.rs:30-46 | The buffer is `Buffer::new` of the file's text, with one line per piece, a render is pending, and the caret and scroll offset are at the origin. |
| TerminalView.WelcomeMessage | src/view/terminal.rs:75-84 | The banner is at most `width` characters long and starts with '~'. When there is room, the message starts at column `(width - len) / 2`, after spaces, and ends the row. |
| TerminalView.ScrollAxis | src/view/terminal.rs:107-122 | With a positive extent the target ends up in view. A target already in view leaves the offset alone and reports no move. A target before the offset becomes the offset. With a positive extent, a target past the end ends up on the last row or column. |
| TerminalView.ScrollAxisMinimal | src/view/terminal.rs:107-122 | Every offset that would show the target is at least as far from the old offset as the chosen one. |
| TerminalView.ScrollLocationIntoView | src/view/terminal.rs:95-123 | With height > 0 and width > 0, the caret ends up inside the viewport. A caret already in view leaves the state unchanged. Otherwise a render is requested. Only the offset and the flag change. |
| TerminalView.ScrollIdempotent | src/view/terminal.rs:95-123 | With height > 0 and width > 0, scrolling a second time changes nothing. (With a zero extent the offset is set past the target, and a second scroll moves it again.) |
| TerminalView.GetPosition | src/view/terminal.rs:614-616 | A caret in view has a screen cell inside the viewport. |
| TerminalView.ScrolledPositionInViewport | src/view/terminal.rs:95-123 | After scrolling, the caret's screen cell is inside the viewport, and adding the offset gives back the caret's location. |
| TerminalView.EndColumn | src/view/terminal.rs:437-439 | End goes to the last grapheme of a non-empty line, and to column 0 on an empty line. |
| TerminalView.EndColumnOnLine | src/view/terminal.rs:437-439 | End never goes past the line's end, and on a non-empty line it lands on a grapheme. |
| TerminalView.EndColumnAsWritten | src/view/terminal.rs:437-439 | As written, End agrees with the corrected column on every non-empty line. |
| TerminalView.EndOnEmptyLineAsWritten | src/view/terminal.rs:437-439 | As written, End on an empty line puts the caret at `usize::MAX`, past the line's end. |
| TerminalView.CaretTarget | src/view/terminal.rs:353-441 | A caret on a line of the buffer stays on a line of the buffer. |
| TerminalView.MoveCaretToLocation | src/view/terminal.rs:350-446 | The buffer and size are unchanged. A caret on the buffer stays on it, and a caret on a line that does not exist is not moved. Afterwards the caret is in view on every axis with positive extent. |
| TerminalView.MoveUpDown | src/view/terminal.rs:355-390 | Up on the first line and Down on the last line leave the caret alone. Otherwise the caret moves one line, and its column is either kept or clamped to the destination line's width in cells. |
| TerminalView.MoveLeft | src/view/terminal.rs:391-404 | Left is a no-op at (0,0). Otherwise it moves back one column, or from column 0 to the last grapheme of the previous line. |
| TerminalView.MoveRight | src/view/terminal.rs:405-417 | Right moves one column while left of the line's last cell. From there it goes to the start of the next line, or does nothing on the last line. |
| TerminalView.MovePage | src/view/terminal.rs:418-433 | PageUp goes to `row - height`, saturating at 0. PageDown goes to `min(row + height, count - 1)`. Both keep the column. |
| TerminalView.MoveHomeEnd | src/view/terminal.rs:434-439 | (corrected) Home goes to column 0, and End to the line's last grapheme. |
| TerminalView.MovesUndo | src/view/terminal.rs:355-433 | Left undoes Right inside a line, and Down undoes Up on the line index. Away from the edges, PageUp undoes PageDown. |
| TerminalView.RepeatDown | src/view/terminal.rs:375-390 | `k` Downs from column 0 of line `j` reach line `j+k`, and the offset keeps the caret on the last visible row, `max(0, j+k+1-height)`. |
| TerminalView.DownTwelveTimes | src/view/terminal.rs:375-390 | On 50 lines with 10 rows, 12 Downs from the top put the caret on line 12 with the offset at line 3. |
| TerminalView.HandleOrdinaryTyping | src/view/terminal.rs:131-153 | (corrected) No character means no change. Otherwise the character is inserted and a render is requested. When the caret's line gained graphemes the caret goes one column right on its line, after the typed character, and is in view on every axis with positive extent; otherwise neither the caret nor the offset moves. The size is kept. |
| TerminalView.HandleOrdinaryTypingAsWritten | src/view/terminal.rs:131-153 | As written, the character is inserted and a render is requested, and the caret moves Right exactly when its line gained graphemes; otherwise neither the caret nor the offset moves. |
| TerminalView.TypingAgreesInsideLine | src/view/terminal.rs:146-147 | Where Right steps one column on the edited line, the corrected typing step equals the one as written. |
| TerminalView.TypingAtLastLineEndStays | src/view/terminal.rs:146-147 | As written, typing a half-width character on an empty last line grows the line to one grapheme but leaves the caret at column 0, in front of it. The corrected step puts the caret at column 1. |
| TerminalView.Backspace | src/view/terminal.rs:243-277 | (corrected) A running result keeps the viewport size. In a viewport with room a caret in view stays in view, and after joining two lines the caret is always scrolled into view. |
| TerminalView.BackspaceAsWritten | src/view/terminal.rs:243-277 | As written, a running result keeps the viewport size. |
| TerminalView.JoinWithPrevious | src/view/terminal.rs:260-277 | Joining removes one line, moves the caret up one line and requests a render; the size and the scroll offset are unchanged. |
| TerminalView.BackspaceJoinLeavesView | src/view/terminal.rs:260-277 | As written, on lines ["a",""] in a 5×1 viewport scrolled to line 1, Backspace at (1,0) puts the caret at (0,1), above the viewport. The corrected Backspace leaves it at (0,1) inside the viewport. |
| TerminalView.BackspaceAtStart | src/view/terminal.rs:243-262 | At (0,0) only the dirty flag changes. On a line that does not exist nothing changes. |
| TerminalView.BackspaceInLine | src/view/terminal.rs:249-254 | At column `c > 0`: fragment `c-1` is removed without re-segmenting, the other lines are kept, and the caret moves to `c-1`. It panics when `c` is past the line's end. |
| TerminalView.BackspaceJoinsLines | src/view/terminal.rs:260-277 | At column 0 of a later line: there is one line fewer, and the previous line becomes previous ++ current. Splitting it where they meet gives both back. Later lines shift up, the caret goes to the end of the joined line, and (corrected) in a viewport with room it is scrolled into view. |
| TerminalView.BackspaceScenario | src/view/terminal.rs:243-277 | From ["ab","x"] at (1,1): Backspace gives ["ab",""] at (1,0), and a second Backspace gives ["ab"] at (0,2). |
| TerminalView.RightPassesLineEnd | src/view/terminal.rs:405-417 | On a line with full-width graphemes, Right can take the caret past the last grapheme, because it bounds the column in cells, and Backspace there panics. |
| TerminalView.DownPassesLineEnd | src/view/terminal.rs:375-390 | Down clamps the column to the next line's width in cells, so from a column between that line's grapheme count and its width the caret lands past its last grapheme, and Backspace there panics. |
| TerminalView.HandleSpecialKey | src/view/terminal.rs:155-283 | Delete deletes at the caret. Enter inserts a line break. Both request a render. BackTab, Insert and CapsLock panic as not implemented. The source match has no arm for Tab; the model chooses to leave the state unchanged for it. Backspace is the corrected Backspace. |
| TerminalView.Resize | src/view/terminal.rs:536-540 | The size becomes the new one, the caret is scrolled into it, and a render is requested. |
| TerminalView.HandleCommand | src/view/terminal.rs:546-575 | Function keys, Quit and Unknown change nothing, and so does a non-character `OrdinaryChar`. Caret moves keep the buffer, and a resize sets the size. |
| TerminalView.CommandKeepsCaretInView | src/view/terminal.rs:546-575 | (corrected) With a viewport with room and a resize that leaves room, every command that does not panic keeps a caret in view in view. |
| TerminalView.RowRange | src/view/terminal.rs:504-509 | A row's cell range starts at the horizontal offset and ends at `min(left + width, graphemes_width)`. |
| TerminalView.Render | src/view/terminal.rs:491-534 | (corrected) Without a pending render or with zero width, nothing is drawn and nothing changes. Otherwise exactly `height` rows are drawn and the flag is cleared. |
| TerminalView.FrameFits | src/view/terminal.rs:500-529 | (corrected) A document row draws its line's visible pieces, in at most `width` cells when the line's cells are addressable. A row past the document starts with '~' and fits the width, and it is exactly "~" unless it is the banner row of an empty document. |
| TerminalView.EmptyDocumentFrame | src/view/terminal.rs:515-527 | An empty document shows the welcome banner on row `height/3` and '~' on every other row. |
| TerminalView.HalfWidthRow | src/view/terminal.rs:500-512 | (corrected) On a half-width line, a row shows exactly graphemes `left` to `left + width` of its line, whole. |

## Findings

| source | as written | input that shows it | evidently intended | confidence | as-written member | corrected member |
|---|---|---|---|---|---|---|
| src/view.rs:106 | The loop stops only at a fragment with `fragment_start > range.end`, so a fragment starting exactly at the right edge is drawn as `⋯`. | Line "ab", range `0..1`: draws "a⋯", two cells in a one-cell range. | Stop at `fragment_start >= range.end`, so the drawn pieces fit the range. | medium, not executed | View.AsWrittenOverdraws | View.VisibleFits |
| src/view/terminal.rs:260-277 | Backspace at column 0 joins the line onto the previous one and moves the caret there without `scroll_location_into_view`, unlike every other caret move. | Lines ["a",""], 5×1 viewport scrolled to line 1, caret at (1,0): the caret ends at (0,1) while the offset stays on line 1. | Scroll the caret into view after the join. | medium, not executed | TerminalView.BackspaceJoinLeavesView | TerminalView.Backspace |
| src/view/terminal.rs:146-147 | After inserting, typing moves the caret with Right, which is bounded by the line's width in cells minus one (lines 407-416). At the end of a line Right does not step past the character just typed: on the last line the caret stays, and elsewhere it jumps to the next line. | Lines ["ab",""], caret (1,0), type 'x': the buffer becomes ["ab","x"] and the caret stays at (1,0), so the next character goes in front of 'x'. | Move the caret one column right on its line, after the typed character, then scroll it into view. | medium, not executed | TerminalView.TypingAtLastLineEndStays | TerminalView.HandleOrdinaryTyping |
| src/view/terminal.rs:438 | End sets the column to `fragments.len() - 1`, which underflows on an empty line. It panics in a debug build and wraps to `usize::MAX` in a release build. | End on an empty line, e.g. in a document with a blank line. | `len().saturating_sub(1)`, the form Left already uses at line 401. | high, not executed | TerminalView.EndOnEmptyLineAsWritten | TerminalView.EndColumnOnLine |

The rest of the model uses the corrected forms: `render` draws rows with
`GetVisibleGraphemes`, End uses `EndColumn`, Backspace scrolls the caret
into view after joining lines, and typing puts the caret after the typed
character.

## Left out

- Terminal I/O is not modelled: raw mode, the alternate screen, queued commands, printing, caret visibility, flushing, clearing, `move_caret_to_position` and `terminate`. `render` returns its rows instead of printing them, and the terminal size at start-up is a parameter of `New`.
- `evaluate_keypress` is not modelled: it is a blocking read followed by dispatch. The press-only filter on key events and the debug-build panic on a decode error belong to it.
- The Unicode tables behind segmentation, width, `trim` and `is_control` are not modelled. They are abstract functions in `Unicode`.
- `Buffer::insert_char`, `Buffer::insert_newline` and `Buffer::delete` are not part of this model. The handlers receive them in `BufferEdits`, and nothing is assumed about what they do.
- TerminalView.HandleSpecialKey: says nothing about where Enter leaves the caret, beyond its being moved Right, because it depends on the unmodelled `insert_newline`.
- TerminalView.HandleOrdinaryTyping: says nothing about the text after typing, because `insert_char` of the buffer is unmodelled; the corrected caret column `col + 1` is the place after a character inserted at the caret.
- The `todo!()` arms (BackTab, Insert, CapsLock) are modelled only as a `NotImplemented` panic.
- `handle_special_key` has no arm for Tab, and the model leaves the state unchanged for it.
- Commented-out code is not modelled.
- The `NAME` and `VERSION` compile-time constants are not modelled. They are the `Package` parameter of the banner.
- The banner is assumed to be ASCII, as Cargo package names and versions are, so its byte length is its character count and `truncate` never splits a character.
- The `saturating_add` calls of `src/view/terminal.rs` are modelled as plain addition: scrolling at lines 110, 111, 119 and 120, Down at 378, Right at 408, 412 and 413, PageDown at 428 and 429, and `render` at 501, 505 and 508. Their operands are a caret index or scroll offset plus 1 or the terminal size. With the corrected End, which the model uses, every caret column is at most the width in cells of some line the buffer has held (PageUp and PageDown keep the column on a shorter line), every caret row is below a line count or 0, and every scroll offset is at most one more than such a column or row. A line's width is at most twice its number of fragments, which memory keeps far below `usize::MAX / 2`, and the viewport size fits in `u16`, so none of these sums reaches `usize::MAX`. With End as written, a column of `usize::MAX` would make the sums at 119 and 505 saturate; that state is not modelled.
- Up and Down clamp the column to the target line's width in cells (lines 363 and 383), not its grapheme count, so the caret can land past the last grapheme and Backspace there panics (TerminalView.DownPassesLineEnd). The model keeps this as written and has no corrected form, because the movement code mixes cell and grapheme columns throughout (Right at line 407 bounds the column in cells as well).
- `render` tests `width == 0 || width == 0`, the same condition twice. The model tests width only, as written.
- The `Debug` text of the decoder's error message is not modelled. The error carries the event instead.
- `From<Location> for Position`, `Into<u16> for GraphemeWidth` and the `From` conversions into `TextFragment` are plain constructors and are not modelled separately.
- `src/editor.rs` (run loop, panic hook, teardown) and `src/main.rs` (arguments, file reading) are not part of this model.
- `src/backup/*` (terminal FFI) is not part of this model.

=== FILE: base.dfy ===
/** Small shared vocabulary: optional values, results, machine-word bounds and
    string concatenation. */
module Base {

  /** Largest value of Rust's `usize` on a 64-bit target. */
  const USIZE_MAX: nat := 0xFFFF_FFFF_FFFF_FFFF

  /** Rust's `usize`. */
  type usize = x: nat | x <= USIZE_MAX

  datatype Option<+T> = None | Some(value: T) {
    /** Rust's `unwrap_or` */
    function UnwrapOr(default: T): T {
      match this
      case Some(v) => v
      case None => default
    }
  }

  datatype Result<+T, +E> = Ok(value: T) | Err(error: E)

  /** Rust's `usize::saturating_sub`: subtraction clamped at zero. */
  function SatSub(a: nat, b: nat): (r: nat)
    ensures r <= a
    ensures b <= a ==> r + b == a
    ensures a <= b ==> r == 0
  {
    if a < b then 0 else a - b
  }

  function Min(a: nat, b: nat): nat {
    if a <= b then a else b
  }

  function Max(a: nat, b: nat): nat {
    if a <= b then b else a
  }

  /** Concatenation of a sequence of strings, in order. */
  function Concat(ss: seq<string>): string {
    if |ss| == 0 then "" else ss[0] + Concat(ss[1..])
  }

  lemma {:induction false} ConcatAppend(a: seq<string>, b: seq<string>)
    ensures Concat(a + b) == Concat(a) + Concat(b)
  {
    if |a| == 0 {
      assert a + b == b;
    } else {
      assert (a + b)[1..] == a[1..] + b;
      ConcatAppend(a[1..], b);
    }
  }
}

=== FILE: buffer.dfy ===
/** The document buffer of `src/editor/buffer.rs`: the lines of the document,
    built from the file's text. */
module TextBuffer {
  import opened Base
  import opened Segmentation
  import opened View

  datatype Buffer = Buffer(lines: seq<Line>)

  /*************************************************************************
   * Rust's `str::lines`
   *************************************************************************/

  /** Index of the first '\n' of `s`, or `|s|` if there is none. */
  function FirstNewline(s: string): (i: nat)
    ensures i <= |s|
    ensures i < |s| ==> s[i] == '\n'
    ensures forall j | 0 <= j < i :: s[j] != '\n'
  {
    if |s| == 0 then 0
    else if s[0] == '\n' then 0
    else 1 + FirstNewline(s[1..])
  }

  /** A line taken off before its '\n' loses one trailing '\r' ("\r\n" endings). */
  function StripCr(p: string): (r: string)
    ensures |p| > 0 && p[|p| - 1] == '\r' ==> r + "\r" == p
    ensures !(|p| > 0 && p[|p| - 1] == '\r') ==> r == p
  {
    if |p| > 0 && p[|p| - 1] == '\r' then p[..|p| - 1] else p
  }

  /** `str::lines`: the text split at each '\n', with a '\r' right before the
      '\n' removed too; a final line without '\n' is kept as it is, and there
      is no empty line after a final '\n'. */
  function StrLines(s: string): (r: seq<string>)
    ensures forall i | 0 <= i < |r| :: '\n' !in r[i]
    decreases |s|
  {
    if |s| == 0 then []
    else
      var i := FirstNewline(s);
      if i == |s| then [s]
      else [StripCr(s[..i])] + StrLines(s[i + 1..])
  }

  function NewlineCount(s: string): nat {
    if |s| == 0 then 0 else (if s[0] == '\n' then 1 else 0) + NewlineCount(s[1..])
  }

  lemma {:induction false} NewlineCountAppend(a: string, b: string)
    ensures NewlineCount(a + b) == NewlineCount(a) + NewlineCount(b)
  {
    if |a| > 0 {
      assert (a + b)[1..] == a[1..] + b;
      NewlineCountAppend(a[1..], b);
    } else {
      assert a + b == b;
    }
  }

  lemma {:induction false} NoNewlineCount(a: string)
    requires '\n' !in a
    ensures NewlineCount(a) == 0
  {
    if |a| > 0 {
      assert a[0] in a;
      assert forall c | c in a[1..] :: c in a;
      NoNewlineCount(a[1..]);
    }
  }

  /** Cutting the text at its first '\n' removes exactly one '\n'. */
  lemma NewlineCountAtFirst(s: string, i: nat)
    requires i < |s| && s[i] == '\n' && '\n' !in s[..i]
    ensures NewlineCount(s) == 1 + NewlineCount(s[i + 1..])
  {
    NoNewlineCount(s[..i]);
    assert s == s[..i] + [s[i]] + s[i + 1..];
    NewlineCountAppend(s[..i] + [s[i]], s[i + 1..]);
    NewlineCountAppend(s[..i], [s[i]]);
  }

  /** Every '\n' ends one line, and a final line without '\n' adds one more. */
  lemma {:induction false} StrLinesCount(s: string)
    ensures |StrLines(s)| == NewlineCount(s) + (if |s| > 0 && s[|s| - 1] != '\n' then 1 else 0)
    decreases |s|
  {
    if |s| > 0 {
      var i := FirstNewline(s);
      if i == |s| {
        assert s[..i] == s;
        NoNewlineCount(s);
      } else {
        var rest := s[i + 1..];
        assert StrLines(s) == [StripCr(s[..i])] + StrLines(rest);
        StrLinesCount(rest);
        NewlineCountAtFirst(s, i);
        if |rest| > 0 {
          assert rest[|rest| - 1] == s[|s| - 1];
        }
      }
    }
  }

  /** The lines joined back, each followed by `ending`. */
  function Terminated(ls: seq<string>, ending: string): string {
    if |ls| == 0 then "" else ls[0] + ending + Terminated(ls[1..], ending)
  }

  lemma FirstNewlineAt(a: string, b: string)
    requires '\n' !in a
    ensures FirstNewline(a + "\n" + b) == |a|
  {
    var s := a + "\n" + b;
    assert s[|a|] == '\n';
    assert forall j | 0 <= j < |a| :: s[j] == a[j] && a[j] in a;
  }

  /** Round trip with "\n" endings: lines without '\n' and not ending in '\r',
      each terminated by '\n', split back into the same lines. */
  lemma {:induction false} StrLinesTerminated(ls: seq<string>)
    requires forall i | 0 <= i < |ls| :: '\n' !in ls[i] && !(|ls[i]| > 0 && ls[i][|ls[i]| - 1] == '\r')
    ensures StrLines(Terminated(ls, "\n")) == ls
  {
    if |ls| > 0 {
      var s := Terminated(ls, "\n");
      var rest := Terminated(ls[1..], "\n");
      assert s == ls[0] + "\n" + rest;
      FirstNewlineAt(ls[0], rest);
      assert s[..|ls[0]|] == ls[0];
      assert s[|ls[0]| + 1..] == rest;
      StrLinesTerminated(ls[1..]);
    }
  }

  /** Round trip with "\r\n" endings: any lines without '\n', each terminated
      by "\r\n", split back into the same lines. */
  lemma {:induction false} StrLinesCrlfTerminated(ls: seq<string>)
    requires forall i | 0 <= i < |ls| :: '\n' !in ls[i]
    ensures StrLines(Terminated(ls, "\r\n")) == ls
  {
    if |ls| > 0 {
      var s := Terminated(ls, "\r\n");
      var rest := Terminated(ls[1..], "\r\n");
      var first := ls[0] + "\r";
      assert '\n' !in first by {
        assert forall c | c in first :: c in ls[0] || c == '\r';
      }
      assert s == first + "\n" + rest;
      FirstNewlineAt(first, rest);
      assert s[..|first|] == first;
      assert s[|first| + 1..] == rest;
      assert StripCr(first) == ls[0] by {
        assert first[..|first| - 1] == ls[0];
      }
      StrLinesCrlfTerminated(ls[1..]);
    }
  }

  /*************************************************************************
   * Buffer
   *************************************************************************/

  /** `Buffer::new`: one line per piece of `str::lines`, each built with
      `Line::from`; the empty text gives a buffer without lines. */
  function New(u: Unicode, content: string): (b: Buffer)
    ensures |b.lines| == |StrLines(content)|
    ensures content == "" ==> b.lines == []
    ensures forall i | 0 <= i < |b.lines| :: b.lines[i] == FromStr(u, StrLines(content)[i])
  {
    var pieces := StrLines(content);
    Buffer(seq(|pieces|, i requires 0 <= i < |pieces| => FromStr(u, pieces[i])))
  }

  /** Each line of a new buffer displays as the corresponding piece of the text. */
  lemma NewDisplaysLines(u: Unicode, content: string)
    requires ValidSegmentation(u)
    ensures forall i | 0 <= i < |New(u, content).lines| :: ToString(New(u, content).lines[i]) == StrLines(content)[i]
  {
    forall i | 0 <= i < |New(u, content).lines|
      ensures ToString(New(u, content).lines[i]) == StrLines(content)[i]
    {
      DisplayFromStr(u, StrLines(content)[i]);
    }
  }

  /** A file of '\n'-terminated lines loads as exactly those lines. */
  lemma NewFromTerminatedLines(u: Unicode, ls: seq<string>)
    requires ValidSegmentation(u)
    requires forall i | 0 <= i < |ls| :: '\n' !in ls[i] && !(|ls[i]| > 0 && ls[i][|ls[i]| - 1] == '\r')
    ensures LineCount(New(u, Terminated(ls, "\n"))) == |ls|
    ensures forall i | 0 <= i < |ls| :: ToString(New(u, Terminated(ls, "\n")).lines[i]) == ls[i]
  {
    StrLinesTerminated(ls);
    NewDisplaysLines(u, Terminated(ls, "\n"));
  }

  /** `Buffer::line_count` */
  function LineCount(b: Buffer): nat {
    |b.lines|
  }

  /** `Buffer::new_line`: insert `line` (an empty line when absent) right after
      line `afterIndex`, or at the end when there is no such line. */
  function NewLine(u: Unicode, b: Buffer, afterIndex: nat, line: Option<Line>): (r: Buffer)
    ensures LineCount(r) == LineCount(b) + 1
    ensures afterIndex < LineCount(b) ==>
              && (forall j | 0 <= j <= afterIndex :: r.lines[j] == b.lines[j])
              && r.lines[afterIndex + 1] == line.UnwrapOr(FromStr(u, ""))
              && (forall j | afterIndex < j < LineCount(b) :: r.lines[j + 1] == b.lines[j])
    ensures afterIndex >= LineCount(b) ==>
              && (forall j | 0 <= j < LineCount(b) :: r.lines[j] == b.lines[j])
              && r.lines[LineCount(b)] == line.UnwrapOr(FromStr(u, ""))
  {
    var inserted := line.UnwrapOr(FromStr(u, ""));
    if afterIndex < |b.lines| then
      Buffer(b.lines[..afterIndex + 1] + [inserted] + b.lines[afterIndex + 1..])
    else
      Buffer(b.lines + [inserted])
  }

  /** Removing the line `new_line` inserted gives back the buffer, and with no
      line given the inserted one is empty. */
  lemma NewLineUndo(u: Unicode, b: Buffer, afterIndex: nat, line: Option<Line>)
    requires ValidSegmentation(u)
    ensures var at := Min(afterIndex + 1, LineCount(b));
            var r := NewLine(u, b, afterIndex, line);
            && r.lines[..at] + r.lines[at + 1..] == b.lines
            && (line.None? ==> r.lines[at] == Line([]))
  {
    FromEmpty(u);
    var at := Min(afterIndex + 1, LineCount(b));
    var r := NewLine(u, b, afterIndex, line);
    assert r.lines[..at] + r.lines[at + 1..] == b.lines;
  }

  /** `Default for Buffer`: the single line "Hello, World!". */
  function Default(u: Unicode): (b: Buffer)
    ensures LineCount(b) == 1
    ensures b.lines[0] == FromStr(u, "Hello, World!")
  {
    Buffer([FromStr(u, "Hello, World!")])
  }

  lemma DefaultDisplays(u: Unicode)
    requires ValidSegmentation(u)
    ensures ToString(Default(u).lines[0]) == "Hello, World!"
  {
    DisplayFromStr(u, "Hello, World!");
  }
}

=== FILE: segmentation.dfy ===
/** The Unicode services the editor borrows from the `unicode-segmentation` and
    `unicode-width` crates, kept abstract: the model never looks inside the
    Unicode tables, it only relies on the laws stated here. */
module Segmentation {
  import opened Base

  /** The foreign Unicode operations the line model calls:
      - `graphemes`: extended grapheme cluster segmentation (`str::graphemes(true)`),
      - `width`: display width of a cluster (`UnicodeWidthStr::width`),
      - `isWhitespace`: the White_Space property used by `str::trim`,
      - `isControl`: `char::is_control`. */
  datatype Unicode = Unicode(
    graphemes: string -> seq<string>,
    width: string -> nat,
    isWhitespace: char -> bool,
    isControl: char -> bool)

  /** The law every segmentation obeys: the clusters are non-empty and
      concatenate back to the input, in order. */
  ghost predicate ValidSegmentation(u: Unicode) {
    forall s: string :: Concat(u.graphemes(s)) == s && NonEmptyPieces(u.graphemes(s))
  }

  predicate NonEmptyPieces(ss: seq<string>) {
    forall i | 0 <= i < |ss| :: |ss[i]| > 0
  }

  /** `grapheme.trim().is_empty()`: every character of the cluster is white space. */
  predicate IsBlank(u: Unicode, g: string) {
    forall i | 0 <= i < |g| :: u.isWhitespace(g[i])
  }

  /** Non-empty pieces that concatenate to nothing: there are none. */
  lemma {:induction false} EmptySegmentation(ss: seq<string>)
    requires NonEmptyPieces(ss)
    requires Concat(ss) == ""
    ensures ss == []
  {
  }

  /** A segmentation obeying the law segments the empty string into nothing. */
  lemma SegmentEmpty(u: Unicode)
    requires ValidSegmentation(u)
    ensures u.graphemes("") == []
  {
    EmptySegmentation(u.graphemes(""));
  }

  /** One cluster per character: the segmentation of text without combining
      marks or joiners, such as ASCII. */
  function CharGraphemes(s: string): (r: seq<string>)
    ensures |r| == |s|
    ensures forall i | 0 <= i < |s| :: r[i] == [s[i]]
  {
    if |s| == 0 then [] else [[s[0]]] + CharGraphemes(s[1..])
  }

  lemma {:induction false} CharGraphemesConcat(s: string)
    ensures Concat(CharGraphemes(s)) == s
  {
    if |s| > 0 {
      assert CharGraphemes(s)[1..] == CharGraphemes(s[1..]);
      CharGraphemesConcat(s[1..]);
    }
  }

  /** A simple ASCII-style instance: every character its own cluster, width 1
      except for C0 control characters, which have width 0. */
  function AsciiUnicode(): Unicode {
    Unicode(
      CharGraphemes,
      (g: string) => if |g| == 1 && g[0] < ' ' then 0 else |g|,
      (c: char) => c == ' ' || c == '\t' || c == '\n' || c == '\r',
      (c: char) => c < ' ' || c == '\U{7F}')
  }

  lemma AsciiUnicodeValid()
    ensures ValidSegmentation(AsciiUnicode())
  {
    forall s: string
      ensures Concat(AsciiUnicode().graphemes(s)) == s && NonEmptyPieces(AsciiUnicode().graphemes(s))
    {
      CharGraphemesConcat(s);
    }
  }
}

=== FILE: terminal.dfy ===
/** The caret, scroll and rendering state machine of `src/view/terminal.rs`,
    with the terminal's I/O taken out: a session is an immutable `Terminal`
    value, every handler returns the next one, and `Render` returns the rows
    it would draw. */
module TerminalView {
  import opened Base
  import opened Segmentation
  import opened View
  import opened TextBuffer
  import opened Commands

  /** Package name and version, which the welcome banner shows. */
  datatype Package = Package(name: string, version: string)

  /** `Terminal`: the document, the dirty flag, the viewport size, the caret
      location and the location drawn in the top-left cell. */
  datatype Terminal = Terminal(
    buffer: Buffer,
    needsRender: bool,
    size: Size,
    location: Location,
    scrollOffset: Location)

  /** The buffer edits the handlers call (`Buffer::insert_char`,
      `Buffer::insert_newline`, `Buffer::delete`), which are not part of this
      model: they are supplied by the caller and nothing is assumed about
      them. */
  datatype BufferEdits = BufferEdits(
    insertChar: (Buffer, char, Location) -> Buffer,
    insertNewline: (Buffer, Location) -> Buffer,
    delete: (Buffer, Location) -> Buffer)

  /** Why a handler panics: a `todo!()` arm, or `Vec::remove` past the end. */
  datatype Panic = NotImplemented | RemovalIndexOutOfBounds

  /** The outcome of handling one command. */
  datatype Step = Running(terminal: Terminal) | Panicked(panic: Panic)

  /** The caret is on a line of the buffer. */
  predicate CaretOnBuffer(t: Terminal) {
    t.location.lineIndex < LineCount(t.buffer)
  }

  /** `Terminal::new`, with the terminal size passed in: the file's lines, the
      caret and the scroll offset at the origin, and a render pending. */
  function New(u: Unicode, content: string, size: Size): (t: Terminal)
    ensures LineCount(t.buffer) == |StrLines(content)|
    ensures t.buffer == TextBuffer.New(u, content)
    ensures t.needsRender && t.size == size
    ensures t.location == Location(0, 0) && t.scrollOffset == Location(0, 0)
  {
    Terminal(TextBuffer.New(u, content), true, size, Location(0, 0), Location(0, 0))
  }

  /*************************************************************************
   * Welcome banner
   *************************************************************************/

  function Spaces(n: nat): (r: string)
    ensures |r| == n
    ensures forall i | 0 <= i < n :: r[i] == ' '
  {
    seq(n, _ => ' ')
  }

  function Banner(pkg: Package): string {
    pkg.name + " editor -- version " + pkg.version
  }

  /** `build_welcome_message`: '~', padding, then the banner, centred in the
      width and cut to it. */
  function WelcomeMessage(pkg: Package, width: nat): (r: string)
    ensures |r| <= width
    ensures width > 0 ==> |r| > 0 && r[0] == '~'
    ensures var m := Banner(pkg);
            var x := (width - |m|) / 2;
            width >= |m| + 2 ==>
              && |r| == x + |m|
              && r[x..] == m
              && (forall i | 1 <= i < x :: r[i] == ' ')
  {
    var message := Banner(pkg);
    var x := SatSub(width, |message|) / 2;
    var full := "~" + Spaces(SatSub(x, 1)) + message;
    assert |full| == 1 + SatSub(x, 1) + |message|;
    assert width >= |message| + 2 ==> x >= 1 && |full| == x + |message| <= width && full[x..] == message;
    full[..Min(width, |full|)]
  }

  /*************************************************************************
   * Scrolling
   *************************************************************************/

  /** One axis of `scroll_location_into_view`: the new offset, and whether it
      moved. */
  function ScrollAxis(target: nat, offset: nat, extent: nat): (r: (nat, bool))
    ensures extent > 0 ==> r.0 <= target < r.0 + extent
    ensures offset <= target < offset + extent ==> r == (offset, false)
    ensures !(offset <= target < offset + extent) ==> r.1
    ensures target < offset ==> r.0 == target
    ensures extent > 0 && offset + extent <= target ==> r.0 + extent == target + 1
  {
    if target < offset then (target, true)
    else if target >= offset + extent then (SatSub(target, extent) + 1, true)
    else (offset, false)
  }

  function Distance(a: nat, b: nat): nat {
    if a <= b then b - a else a - b
  }

  /** Minimal movement: every offset that shows `target` is at least as far
      from the old offset as the one scrolling picks. */
  lemma ScrollAxisMinimal(target: nat, offset: nat, extent: nat, other: nat)
    requires other <= target < other + extent
    ensures Distance(ScrollAxis(target, offset, extent).0, offset) <= Distance(other, offset)
  {
  }

  predicate RowInView(t: Terminal) {
    t.scrollOffset.lineIndex <= t.location.lineIndex < t.scrollOffset.lineIndex + t.size.height
  }

  predicate ColumnInView(t: Terminal) {
    t.scrollOffset.graphemeIndex <= t.location.graphemeIndex < t.scrollOffset.graphemeIndex + t.size.width
  }

  /** `scroll_location_into_view`: move the offset just enough for the caret
      to be inside the viewport, and ask for a render if it moved. */
  function ScrollLocationIntoView(t: Terminal): (r: Terminal)
    ensures r.buffer == t.buffer && r.size == t.size && r.location == t.location
    ensures t.size.height > 0 ==> RowInView(r)
    ensures t.size.width > 0 ==> ColumnInView(r)
    ensures RowInView(t) ==> r.scrollOffset.lineIndex == t.scrollOffset.lineIndex
    ensures ColumnInView(t) ==> r.scrollOffset.graphemeIndex == t.scrollOffset.graphemeIndex
    ensures r.needsRender <==> t.needsRender || !RowInView(t) || !ColumnInView(t)
    ensures RowInView(t) && ColumnInView(t) ==> r == t
  {
    var (row, rowMoved) := ScrollAxis(t.location.lineIndex, t.scrollOffset.lineIndex, t.size.height);
    var (col, colMoved) := ScrollAxis(t.location.graphemeIndex, t.scrollOffset.graphemeIndex, t.size.width);
    t.(scrollOffset := Location(row, col), needsRender := t.needsRender || rowMoved || colMoved)
  }

  /** Scrolling twice is scrolling once. */
  lemma ScrollIdempotent(t: Terminal)
    requires t.size.height > 0 && t.size.width > 0
    ensures ScrollLocationIntoView(ScrollLocationIntoView(t)) == ScrollLocationIntoView(t)
  {
  }

  /** `get_position`: the caret's screen cell. */
  function GetPosition(t: Terminal): (p: Position)
    ensures RowInView(t) ==> p.y < t.size.height
    ensures ColumnInView(t) ==> p.x < t.size.width
  {
    ToPosition(t.location, t.scrollOffset)
  }

  /** After scrolling, the caret's screen cell lies inside the viewport and
      maps back to the caret's location. */
  lemma ScrolledPositionInViewport(t: Terminal)
    requires t.size.height > 0 && t.size.width > 0
    ensures var r := ScrollLocationIntoView(t);
            var p := GetPosition(r);
            && p.x < t.size.width && p.y < t.size.height
            && p.x + r.scrollOffset.graphemeIndex == t.location.graphemeIndex
            && p.y + r.scrollOffset.lineIndex == t.location.lineIndex
  {
  }

  /*************************************************************************
   * Caret movement
   *************************************************************************/

  /** The column `End` moves to: the last grapheme, or column 0 on an empty
      line. */
  function EndColumn(l: Line): (c: nat)
    ensures GraphemeCount(l) > 0 ==> c + 1 == GraphemeCount(l)
    ensures GraphemeCount(l) == 0 ==> c == 0
  {
    SatSub(GraphemeCount(l), 1)
  }

  /** The column `End` moves to as written, `fragments.len() - 1`, which on an
      empty line wraps around to `usize::MAX` in a release build. */
  function EndColumnAsWritten(l: Line): (c: nat)
    ensures GraphemeCount(l) > 0 ==> c == EndColumn(l)
  {
    if GraphemeCount(l) == 0 then USIZE_MAX else GraphemeCount(l) - 1
  }

  /** On an empty line, `End` as written puts the caret far past the end of
      the line, where no grapheme exists. */
  lemma EndOnEmptyLineAsWritten()
    ensures EndColumnAsWritten(Line([])) == USIZE_MAX
    ensures EndColumnAsWritten(Line([])) > GraphemeCount(Line([]))
  {
  }

  /** `End` never moves the caret past the end of its line. */
  lemma EndColumnOnLine(l: Line)
    ensures EndColumn(l) <= GraphemeCount(l)
    ensures GraphemeCount(l) > 0 ==> EndColumn(l) < GraphemeCount(l)
  {
  }

  /** The location the caret moves to in direction `d`, before scrolling, when
      it is on line `loc.lineIndex` of `b`. */
  function CaretTarget(b: Buffer, loc: Location, height: nat, d: Direction): (r: Location)
    requires loc.lineIndex < LineCount(b)
    ensures r.lineIndex < LineCount(b)
  {
    var row := loc.lineIndex;
    var col := loc.graphemeIndex;
    var line := b.lines[row];
    match d
    case Up =>
      if row > 0 then Location(row - 1, Min(col, GraphemesWidth(b.lines[row - 1]))) else Location(0, col)
    case Down =>
      if row < SatSub(LineCount(b), 1) then Location(row + 1, Min(col, GraphemesWidth(b.lines[row + 1]))) else loc
    case Left =>
      if col > 0 then Location(row, col - 1)
      else if row > 0 then Location(row - 1, SatSub(GraphemeCount(b.lines[row - 1]), 1))
      else loc
    case Right =>
      if col < SatSub(GraphemesWidth(line), 1) then Location(row, col + 1)
      else if row + 1 < LineCount(b) then Location(row + 1, 0)
      else loc
    case PageUp =>
      if row < height then Location(0, col) else Location(row - height, col)
    case PageDown =>
      if LineCount(b) > row + height then Location(row + height, col) else Location(LineCount(b) - 1, col)
    case Home => Location(row, 0)
    case End => Location(row, EndColumn(line))
  }

  /** `move_caret_to_location`: move the caret if it is on a line of the
      buffer, then scroll it into view. */
  function MoveCaretToLocation(t: Terminal, d: Direction): (r: Terminal)
    ensures r.buffer == t.buffer && r.size == t.size
    ensures CaretOnBuffer(t) ==> CaretOnBuffer(r)
    ensures !CaretOnBuffer(t) ==> r.location == t.location
    ensures t.size.height > 0 ==> RowInView(r)
    ensures t.size.width > 0 ==> ColumnInView(r)
  {
    var target := if CaretOnBuffer(t) then CaretTarget(t.buffer, t.location, t.size.height, d) else t.location;
    ScrollLocationIntoView(t.(location := target))
  }

  /** Up stays put on the first line; otherwise it moves one line up and
      clamps the column to the cell width of that line. Down is symmetric at
      the last line. */
  lemma MoveUpDown(t: Terminal)
    requires CaretOnBuffer(t)
    ensures var row := t.location.lineIndex;
            var col := t.location.graphemeIndex;
            var up := MoveCaretToLocation(t, Direction.Up).location;
            var down := MoveCaretToLocation(t, Direction.Down).location;
            && (row == 0 ==> up == t.location)
            && (row > 0 ==>
                  && up.lineIndex + 1 == row && up.graphemeIndex <= col
                  && up.graphemeIndex <= GraphemesWidth(t.buffer.lines[row - 1])
                  && (up.graphemeIndex == col || up.graphemeIndex == GraphemesWidth(t.buffer.lines[row - 1])))
            && (row + 1 == LineCount(t.buffer) ==> down == t.location)
            && (row + 1 < LineCount(t.buffer) ==>
                  && down.lineIndex == row + 1 && down.graphemeIndex <= col
                  && down.graphemeIndex <= GraphemesWidth(t.buffer.lines[row + 1])
                  && (down.graphemeIndex == col || down.graphemeIndex == GraphemesWidth(t.buffer.lines[row + 1])))
  {
  }

  /** Left stays put at the start of the document, steps back one column, or
      wraps to the last grapheme of the previous line. */
  lemma MoveLeft(t: Terminal)
    requires CaretOnBuffer(t)
    ensures var row := t.location.lineIndex;
            var col := t.location.graphemeIndex;
            var r := MoveCaretToLocation(t, Direction.Left).location;
            && (row == 0 && col == 0 ==> r == t.location)
            && (col > 0 ==> r == Location(row, col - 1))
            && (row > 0 && col == 0 ==> r == Location(row - 1, EndColumn(t.buffer.lines[row - 1])))
  {
  }

  /** Right steps one column while left of the line's last cell; from there it
      wraps to the start of the next line, or stays put on the last line. */
  lemma MoveRight(t: Terminal)
    requires CaretOnBuffer(t)
    ensures var row := t.location.lineIndex;
            var col := t.location.graphemeIndex;
            var last := SatSub(GraphemesWidth(t.buffer.lines[row]), 1);
            var r := MoveCaretToLocation(t, Direction.Right).location;
            && (col < last ==> r == Location(row, col + 1))
            && (col >= last && row + 1 < LineCount(t.buffer) ==> r == Location(row + 1, 0))
            && (col >= last && row + 1 == LineCount(t.buffer) ==> r == t.location)
  {
  }

  /** PageUp and PageDown move by the viewport height, clamped to the first
      and last line, and keep the column. */
  lemma MovePage(t: Terminal)
    requires CaretOnBuffer(t)
    ensures var row := t.location.lineIndex;
            var h := t.size.height;
            var up := MoveCaretToLocation(t, Direction.PageUp).location;
            var down := MoveCaretToLocation(t, Direction.PageDown).location;
            && up.graphemeIndex == t.location.graphemeIndex
            && down.graphemeIndex == t.location.graphemeIndex
            && up.lineIndex == SatSub(row, h)
            && down.lineIndex == Min(row + h, LineCount(t.buffer) - 1)
  {
  }

  /** Home goes to column 0 and End to the line's last grapheme. */
  lemma MoveHomeEnd(t: Terminal)
    requires CaretOnBuffer(t)
    ensures var row := t.location.lineIndex;
            && MoveCaretToLocation(t, Direction.Home).location == Location(row, 0)
            && MoveCaretToLocation(t, Direction.End).location == Location(row, EndColumn(t.buffer.lines[row]))
  {
  }

  /** Left undoes Right within a line, and Down undoes Up and PageUp undoes
      PageDown on the line index, away from the document's edges. */
  lemma MovesUndo(t: Terminal)
    requires CaretOnBuffer(t)
    ensures var row := t.location.lineIndex;
            var col := t.location.graphemeIndex;
            && (col < SatSub(GraphemesWidth(t.buffer.lines[row]), 1) ==>
                  MoveCaretToLocation(MoveCaretToLocation(t, Direction.Right), Direction.Left).location == t.location)
            && (row > 0 ==>
                  MoveCaretToLocation(MoveCaretToLocation(t, Direction.Up), Direction.Down).location.lineIndex == row)
            && (row + t.size.height < LineCount(t.buffer) ==>
                  MoveCaretToLocation(MoveCaretToLocation(t, Direction.PageDown), Direction.PageUp).location.lineIndex == row)
  {
  }

  /** The same move repeated `k` times. */
  function Repeat(t: Terminal, d: Direction, k: nat): Terminal
    decreases k
  {
    if k == 0 then t else Repeat(MoveCaretToLocation(t, d), d, k - 1)
  }

  /** Moving Down `k` times from column 0 of line `j` reaches line `j + k`,
      and once the caret passes the viewport the offset keeps it on the last
      visible row. */
  lemma {:induction false} RepeatDown(t: Terminal, k: nat)
    requires t.size.height > 0 && t.size.width > 0
    requires t.location.graphemeIndex == 0 && t.scrollOffset.graphemeIndex == 0
    requires t.scrollOffset.lineIndex == SatSub(t.location.lineIndex + 1, t.size.height)
    requires t.location.lineIndex + k < LineCount(t.buffer)
    ensures var r := Repeat(t, Direction.Down, k);
            && r.location == Location(t.location.lineIndex + k, 0)
            && r.scrollOffset == Location(SatSub(t.location.lineIndex + k + 1, t.size.height), 0)
            && r.buffer == t.buffer && r.size == t.size
    decreases k
  {
    if k > 0 {
      var next := MoveCaretToLocation(t, Direction.Down);
      assert next.location == Location(t.location.lineIndex + 1, 0);
      RepeatDown(next, k - 1);
    }
  }

  /** With a viewport 10 rows high, pressing Down 12 times from the top of a
      50-line document puts the caret on line 12 and scrolls 3 lines. */
  lemma DownTwelveTimes(t: Terminal)
    requires LineCount(t.buffer) == 50 && t.size.height == 10 && t.size.width > 0
    requires t.location == Location(0, 0) && t.scrollOffset == Location(0, 0)
    ensures Repeat(t, Direction.Down, 12).location == Location(12, 0)
    ensures Repeat(t, Direction.Down, 12).scrollOffset == Location(3, 0)
  {
    RepeatDown(t, 12);
    assert SatSub(0 + 12 + 1, 10) == 3;
  }

  /*************************************************************************
   * Editing
   *************************************************************************/

  /** Graphemes on line `row`, or 0 when there is no such line. */
  function LineLength(b: Buffer, row: nat): nat {
    if row < LineCount(b) then GraphemeCount(b.lines[row]) else 0
  }

  /** A half-width fragment for character `c`, as the scenarios below use. */
  function Ascii(c: char): TextFragment {
    TextFragment([c], GraphemeWidth.Half, None)
  }

  /** `handle_ordinary_typing` as written: insert the character at the
      caret; the caret moves Right only if its line gained graphemes. Right is
      bounded by the line's width in cells, so at the end of a line it does not
      step past the character just typed. */
  function HandleOrdinaryTypingAsWritten(ops: BufferEdits, t: Terminal, c: Option<char>): (r: Terminal)
    ensures c.None? ==> r == t
    ensures r.size == t.size
    ensures c.Some? ==> r.needsRender && r.buffer == ops.insertChar(t.buffer, c.value, t.location)
    ensures c.Some? && LineLength(r.buffer, t.location.lineIndex) <= LineLength(t.buffer, t.location.lineIndex) ==>
              r.location == t.location && r.scrollOffset == t.scrollOffset
    ensures c.Some? && LineLength(r.buffer, t.location.lineIndex) > LineLength(t.buffer, t.location.lineIndex) ==>
              r.location == MoveCaretToLocation(t.(buffer := r.buffer), Direction.Right).location
  {
    match c
    case None => t
    case Some(ch) =>
      var oldLen := LineLength(t.buffer, t.location.lineIndex);
      var edited := t.(buffer := ops.insertChar(t.buffer, ch, t.location));
      var newLen := LineLength(edited.buffer, t.location.lineIndex);
      var moved := if SatSub(newLen, oldLen) > 0 then MoveCaretToLocation(edited, Direction.Right) else edited;
      moved.(needsRender := true)
  }

  /** `handle_ordinary_typing` with the caret placed just after the typed
      character: when the line gained graphemes the caret goes one column
      right on the same line and is scrolled into view; otherwise neither the
      caret nor the offset moves. */
  function HandleOrdinaryTyping(ops: BufferEdits, t: Terminal, c: Option<char>): (r: Terminal)
    ensures c.None? ==> r == t
    ensures r.size == t.size
    ensures c.Some? ==> r.needsRender && r.buffer == ops.insertChar(t.buffer, c.value, t.location)
    ensures c.Some? && LineLength(r.buffer, t.location.lineIndex) <= LineLength(t.buffer, t.location.lineIndex) ==>
              r.location == t.location && r.scrollOffset == t.scrollOffset
    ensures c.Some? && LineLength(r.buffer, t.location.lineIndex) > LineLength(t.buffer, t.location.lineIndex) ==>
              && r.location == Location(t.location.lineIndex, t.location.graphemeIndex + 1)
              && (t.size.height > 0 ==> RowInView(r))
              && (t.size.width > 0 ==> ColumnInView(r))
  {
    match c
    case None => t
    case Some(ch) =>
      var row := t.location.lineIndex;
      var col := t.location.graphemeIndex;
      var edited := t.(buffer := ops.insertChar(t.buffer, ch, t.location));
      var moved :=
        if SatSub(LineLength(edited.buffer, row), LineLength(t.buffer, row)) > 0
        then ScrollLocationIntoView(edited.(location := Location(row, col + 1)))
        else edited;
      moved.(needsRender := true)
  }

  /** Away from the end of the edited line, where Right does step one column,
      the corrected typing step is the one as written. */
  lemma TypingAgreesInsideLine(ops: BufferEdits, t: Terminal, ch: char)
    requires CaretOnBuffer(t)
    requires var b := ops.insertChar(t.buffer, ch, t.location);
             && t.location.lineIndex < LineCount(b)
             && t.location.graphemeIndex < SatSub(GraphemesWidth(b.lines[t.location.lineIndex]), 1)
    ensures HandleOrdinaryTyping(ops, t, Some(ch)) == HandleOrdinaryTypingAsWritten(ops, t, Some(ch))
  {
  }

  /** Typing a half-width character on an empty last line: as written the
      line grows to that one character but the caret stays at column 0, in
      front of it; corrected, the caret goes to column 1, after it. */
  lemma TypingAtLastLineEndStays(ops: BufferEdits, t: Terminal, ch: char)
    requires CaretOnBuffer(t) && t.location.lineIndex + 1 == LineCount(t.buffer)
    requires t.location.graphemeIndex == 0 && t.buffer.lines[t.location.lineIndex] == Line([])
    requires ops.insertChar(t.buffer, ch, t.location) ==
             Buffer(t.buffer.lines[t.location.lineIndex := Line([Ascii(ch)])])
    ensures LineLength(HandleOrdinaryTypingAsWritten(ops, t, Some(ch)).buffer, t.location.lineIndex) == 1
    ensures HandleOrdinaryTypingAsWritten(ops, t, Some(ch)).location == t.location
    ensures HandleOrdinaryTyping(ops, t, Some(ch)).location == Location(t.location.lineIndex, 1)
  {
  }

  /** Backspace at column 0 of a line after the first: the line is appended
      to the previous one and the caret goes to the end of the joined line. */
  function JoinWithPrevious(t: Terminal): (r: Terminal)
    requires CaretOnBuffer(t) && t.location.lineIndex > 0
    ensures LineCount(r.buffer) + 1 == LineCount(t.buffer)
    ensures r.size == t.size && r.scrollOffset == t.scrollOffset && r.needsRender
    ensures r.location.lineIndex + 1 == t.location.lineIndex
  {
    var row := t.location.lineIndex;
    var merged := Append(t.buffer.lines[row - 1], t.buffer.lines[row]);
    var lines := t.buffer.lines[row - 1 := merged];
    t.(buffer := Buffer(lines[..row] + lines[row + 1..]),
       location := Location(row - 1, GraphemeCount(merged)),
       needsRender := true)
  }

  /** The Backspace arm of `handle_special_key` as written: joining lines
      moves the caret without scrolling it into view. */
  function BackspaceAsWritten(t: Terminal): (r: Step)
    ensures r.Running? ==> r.terminal.size == t.size
  {
    var row := t.location.lineIndex;
    var col := t.location.graphemeIndex;
    if row >= LineCount(t.buffer) then Running(t)
    else
      var line := t.buffer.lines[row];
      if col != 0 then
        if col - 1 >= GraphemeCount(line) then Panicked(RemovalIndexOutOfBounds)
        else
          var shortened := Line(line.fragments[..col - 1] + line.fragments[col..]);
          var edited := t.(buffer := Buffer(t.buffer.lines[row := shortened]));
          Running(MoveCaretToLocation(edited, Direction.Left).(needsRender := true))
      else if row == 0 then Running(t.(needsRender := true))
      else Running(JoinWithPrevious(t))
  }

  /** The Backspace arm of `handle_special_key`, with the caret scrolled into
      view after a join as every other caret move does. A viewport with room
      keeps the caret inside it; after a join it is inside whatever the
      offset was. */
  function Backspace(t: Terminal): (r: Step)
    ensures r.Running? ==> r.terminal.size == t.size
    ensures t.size.height > 0 && t.size.width > 0 && RowInView(t) && ColumnInView(t) && r.Running? ==>
              RowInView(r.terminal) && ColumnInView(r.terminal)
    ensures CaretOnBuffer(t) && t.location.graphemeIndex == 0 && t.location.lineIndex > 0
              && t.size.height > 0 && t.size.width > 0 ==>
              r.Running? && RowInView(r.terminal) && ColumnInView(r.terminal)
  {
    if CaretOnBuffer(t) && t.location.graphemeIndex == 0 && t.location.lineIndex > 0 then
      Running(ScrollLocationIntoView(JoinWithPrevious(t)))
    else BackspaceAsWritten(t)
  }

  /** Lines `["a", ""]` in a 5-by-1 viewport scrolled down to line 1, caret at
      the start of line 1: as written, Backspace joins the lines and leaves the
      caret on line 0 above the viewport; with the scroll it stays visible. */
  lemma BackspaceJoinLeavesView()
    ensures var t := Terminal(Buffer([Line([Ascii('a')]), Line([])]), false, Size(5, 1), Location(1, 0), Location(1, 0));
            && RowInView(t) && ColumnInView(t)
            && BackspaceAsWritten(t).Running?
            && BackspaceAsWritten(t).terminal.location == Location(0, 1)
            && !RowInView(BackspaceAsWritten(t).terminal)
            && Backspace(t).Running?
            && Backspace(t).terminal.location == Location(0, 1)
            && RowInView(Backspace(t).terminal) && ColumnInView(Backspace(t).terminal)
  {
    var t := Terminal(Buffer([Line([Ascii('a')]), Line([])]), false, Size(5, 1), Location(1, 0), Location(1, 0));
    assert Append(t.buffer.lines[0], t.buffer.lines[1]).fragments == [Ascii('a')];
  }

  /** Backspace at the start of the document changes nothing but the dirty
      flag; off the buffer it changes nothing at all. */
  lemma BackspaceAtStart(t: Terminal)
    ensures t.location == Location(0, 0) ==> Backspace(t) == Running(t.(needsRender := CaretOnBuffer(t) || t.needsRender))
    ensures !CaretOnBuffer(t) ==> Backspace(t) == Running(t)
  {
  }

  /** Backspace inside a line removes the fragment left of the caret, without
      re-segmenting, leaves the other lines alone and moves the caret left;
      it panics when the caret is past the line's last grapheme. */
  lemma BackspaceInLine(t: Terminal)
    requires CaretOnBuffer(t) && t.location.graphemeIndex > 0
    ensures var row := t.location.lineIndex;
            var col := t.location.graphemeIndex;
            var before := t.buffer.lines[row].fragments;
            var r := Backspace(t);
            && (col > |before| ==> r == Panicked(RemovalIndexOutOfBounds))
            && (col <= |before| ==>
                  && r.Running?
                  && LineCount(r.terminal.buffer) == LineCount(t.buffer)
                  && |r.terminal.buffer.lines[row].fragments| + 1 == |before|
                  && r.terminal.buffer.lines[row].fragments[..col - 1] == before[..col - 1]
                  && r.terminal.buffer.lines[row].fragments[col - 1..] == before[col..]
                  && (forall j | 0 <= j < LineCount(t.buffer) && j != row :: r.terminal.buffer.lines[j] == t.buffer.lines[j])
                  && r.terminal.location == Location(row, col - 1)
                  && r.terminal.needsRender)
  {
    var row := t.location.lineIndex;
    var col := t.location.graphemeIndex;
    var before := t.buffer.lines[row].fragments;
    if col <= |before| {
      var shortened := before[..col - 1] + before[col..];
      assert shortened[..col - 1] == before[..col - 1];
      assert shortened[col - 1..] == before[col..];
    }
  }

  /** Backspace at column 0 of a later line joins that line onto the previous
      one: one line fewer, the previous line followed by the current one (and
      splitting it where they meet gives both back), the lines after move up by
      one, the caret goes to the end of the joined line, and a viewport with
      room is scrolled to show it. */
  lemma BackspaceJoinsLines(t: Terminal)
    requires CaretOnBuffer(t) && t.location.graphemeIndex == 0 && t.location.lineIndex > 0
    ensures var row := t.location.lineIndex;
            var prev := t.buffer.lines[row - 1];
            var cur := t.buffer.lines[row];
            var r := Backspace(t);
            && r.Running?
            && LineCount(r.terminal.buffer) + 1 == LineCount(t.buffer)
            && r.terminal.buffer.lines[row - 1].fragments == prev.fragments + cur.fragments
            && ToString(r.terminal.buffer.lines[row - 1]) == ToString(prev) + ToString(cur)
            && Split(r.terminal.buffer.lines[row - 1], GraphemeCount(prev)) == (prev, cur)
            && (forall j | 0 <= j < row - 1 :: r.terminal.buffer.lines[j] == t.buffer.lines[j])
            && (forall j | row <= j < LineCount(r.terminal.buffer) :: r.terminal.buffer.lines[j] == t.buffer.lines[j + 1])
            && r.terminal.location == Location(row - 1, GraphemeCount(prev) + GraphemeCount(cur))
            && (t.size.height > 0 && t.size.width > 0 ==> RowInView(r.terminal) && ColumnInView(r.terminal))
            && r.terminal.needsRender
  {
    var row := t.location.lineIndex;
    var prev := t.buffer.lines[row - 1];
    var cur := t.buffer.lines[row];
    var merged := Append(prev, cur);
    assert merged.fragments[..GraphemeCount(prev)] == prev.fragments;
    assert merged.fragments[GraphemeCount(prev)..] == cur.fragments;
  }

  /** Two Backspaces from the end of line 1 of `["ab", "x"]`: the first
      removes 'x', the second joins the now empty line onto "ab" and leaves
      the caret after 'b'. */
  lemma BackspaceScenario(t: Terminal)
    requires t.buffer == Buffer([Line([Ascii('a'), Ascii('b')]), Line([Ascii('x')])])
    requires t.location == Location(1, 1)
    ensures Backspace(t).Running?
    ensures var t1 := Backspace(t).terminal;
            && t1.buffer == Buffer([Line([Ascii('a'), Ascii('b')]), Line([])])
            && t1.location == Location(1, 0)
            && Backspace(t1).Running?
            && Backspace(t1).terminal.buffer == Buffer([Line([Ascii('a'), Ascii('b')])])
            && Backspace(t1).terminal.location == Location(0, 2)
  {
    BackspaceInLine(t);
    var t1 := Backspace(t).terminal;
    assert t1.buffer.lines[1].fragments == [];
    assert t1.buffer == Buffer([Line([Ascii('a'), Ascii('b')]), Line([])]);
    BackspaceJoinsLines(t1);
    assert Backspace(t1).terminal.buffer.lines[0].fragments == [Ascii('a'), Ascii('b')];
  }

  /** Where a line has full-width graphemes, Right can carry the caret past
      the line's last grapheme (the bound is in cells, the caret in graphemes),
      and Backspace there panics. */
  lemma RightPassesLineEnd(t: Terminal)
    requires CaretOnBuffer(t)
    requires t.location.graphemeIndex == GraphemeCount(t.buffer.lines[t.location.lineIndex])
    requires GraphemesWidth(t.buffer.lines[t.location.lineIndex]) >= GraphemeCount(t.buffer.lines[t.location.lineIndex]) + 2
    ensures var r := MoveCaretToLocation(t, Direction.Right);
            && r.location.graphemeIndex > GraphemeCount(r.buffer.lines[r.location.lineIndex])
            && Backspace(r) == Panicked(RemovalIndexOutOfBounds)
  {
  }

  /** Up and Down clamp the column to the target line's width in cells, not
      its number of graphemes: moving down from a column between the two onto
      a line with full-width graphemes leaves the caret past that line's last
      grapheme, and Backspace there panics. */
  lemma DownPassesLineEnd(t: Terminal)
    requires CaretOnBuffer(t) && t.location.lineIndex + 1 < LineCount(t.buffer)
    requires var next := t.buffer.lines[t.location.lineIndex + 1];
             GraphemeCount(next) < t.location.graphemeIndex <= GraphemesWidth(next)
    ensures var r := MoveCaretToLocation(t, Direction.Down);
            && r.location == Location(t.location.lineIndex + 1, t.location.graphemeIndex)
            && r.location.graphemeIndex > GraphemeCount(r.buffer.lines[r.location.lineIndex])
            && Backspace(r) == Panicked(RemovalIndexOutOfBounds)
  {
  }

  /** `handle_special_key`. The arm for Tab is missing from the source; the
      model leaves the state unchanged for it. */
  function HandleSpecialKey(ops: BufferEdits, t: Terminal, key: SpecialKey): (r: Step)
    ensures key == SpecialKey.Delete ==>
              r == Running(t.(buffer := ops.delete(t.buffer, t.location), needsRender := true))
    ensures key == SpecialKey.Enter ==>
              r.Running? && r.terminal.needsRender && r.terminal.buffer == ops.insertNewline(t.buffer, t.location)
    ensures key in {SpecialKey.BackTab, SpecialKey.Insert, SpecialKey.CapsLock} ==> r == Panicked(NotImplemented)
    ensures key == SpecialKey.Tab ==> r == Running(t)
    ensures key == SpecialKey.Backspace ==> r == Backspace(t)
  {
    match key
    case Enter =>
      var edited := t.(buffer := ops.insertNewline(t.buffer, t.location));
      Running(MoveCaretToLocation(edited, Direction.Right).(needsRender := true))
    case Delete => Running(t.(buffer := ops.delete(t.buffer, t.location), needsRender := true))
    case Backspace => Backspace(t)
    case Tab => Running(t)
    case BackTab => Panicked(NotImplemented)
    case Insert => Panicked(NotImplemented)
    case CapsLock => Panicked(NotImplemented)
  }

  /** `resize`: take the new size, scroll the caret into it and ask for a
      render. */
  function Resize(t: Terminal, to: Size): (r: Terminal)
    ensures r.size == to && r.needsRender
    ensures r.buffer == t.buffer && r.location == t.location
    ensures to.height > 0 ==> RowInView(r)
    ensures to.width > 0 ==> ColumnInView(r)
  {
    ScrollLocationIntoView(t.(size := to)).(needsRender := true)
  }

  /** `handle_command`: dispatch a decoded command. */
  function HandleCommand(ops: BufferEdits, t: Terminal, cmd: TerminalCommand): (r: Step)
    ensures cmd.FunctionKey? || cmd.Quit? || cmd.Unknown? ==> r == Running(t)
    ensures cmd.MoveCaret? ==> r.Running? && r.terminal.buffer == t.buffer
    ensures cmd.Resize? ==> r.Running? && r.terminal.size == cmd.size
    ensures cmd.OrdinaryChar? && !cmd.keyCode.Char? ==> r == Running(t)
  {
    match cmd
    case MoveCaret(d) => Running(MoveCaretToLocation(t, d))
    case OrdinaryChar(code) => Running(HandleOrdinaryTyping(ops, t, AsChar(code)))
    case SpecialKey(key) => HandleSpecialKey(ops, t, key)
    case FunctionKey(_) => Running(t)
    case Resize(size) => Running(Resize(t, size))
    case Quit => Running(t)
    case Unknown => Running(t)
  }

  /** Every command keeps the caret inside a viewport with room, as long as a
      resize leaves room too. */
  lemma CommandKeepsCaretInView(ops: BufferEdits, t: Terminal, cmd: TerminalCommand)
    requires t.size.height > 0 && t.size.width > 0 && RowInView(t) && ColumnInView(t)
    requires cmd.Resize? ==> cmd.size.height > 0 && cmd.size.width > 0
    ensures var r := HandleCommand(ops, t, cmd);
            r.Running? ==> RowInView(r.terminal) && ColumnInView(r.terminal)
  {
  }

  /*************************************************************************
   * Rendering
   *************************************************************************/

  /** The cells of document line `line` that fall in the viewport. */
  function RowRange(t: Terminal, line: Line): (r: CellRange)
    ensures r.start == t.scrollOffset.graphemeIndex
    ensures r.end == Min(r.start + t.size.width, GraphemesWidth(line))
  {
    var left := t.scrollOffset.graphemeIndex;
    var right := if left + t.size.width > GraphemesWidth(line) then GraphemesWidth(line) else left + t.size.width;
    CellRange(left, right)
  }

  /** What screen row `viewRow` shows: the visible part of its document line,
      or past the end of the document '~', or the welcome banner a third of
      the way down an empty document. */
  function RowText(t: Terminal, pkg: Package, viewRow: nat): string {
    var abs := viewRow + t.scrollOffset.lineIndex;
    if abs < LineCount(t.buffer) then
      var line := t.buffer.lines[abs];
      GetVisibleGraphemes(line, RowRange(t, line))
    else if viewRow == t.size.height / 3 && LineCount(t.buffer) == 0 then
      WelcomeMessage(pkg, t.size.width)
    else "~"
  }

  /** A frame drawn (one string per screen row), or none, and the state after. */
  datatype Rendered = Rendered(frame: Option<seq<string>>, terminal: Terminal)

  /** `render`: nothing unless a render is pending and the viewport has width;
      otherwise every row of the viewport, after which nothing is pending. */
  function Render(t: Terminal, pkg: Package): (r: Rendered)
    ensures !t.needsRender || t.size.width == 0 ==> r == Rendered(None, t)
    ensures t.needsRender && t.size.width > 0 ==>
              && r.frame.Some? && |r.frame.value| == t.size.height
              && r.terminal == t.(needsRender := false)
  {
    if !t.needsRender || t.size.width == 0 then Rendered(None, t)
    else
      Rendered(Some(seq(t.size.height, i requires 0 <= i < t.size.height => RowText(t, pkg, i))),
               t.(needsRender := false))
  }

  /** Row `viewRow` of a rendered frame is that row's text. */
  lemma RenderRow(t: Terminal, pkg: Package, viewRow: nat)
    requires t.needsRender && t.size.width > 0 && viewRow < t.size.height
    ensures Render(t, pkg).frame.Some? && |Render(t, pkg).frame.value| == t.size.height
    ensures Render(t, pkg).frame.value[viewRow] == RowText(t, pkg, viewRow)
  {
  }

  /** What each row of a frame shows: a document row draws the visible
      pieces of its line, at most `width` cells of them when the line's cells
      are addressable; a row past the document starts with '~' and has at most
      `width` characters, and is exactly "~" unless it is the banner row of an
      empty document. */
  lemma FrameFits(t: Terminal, pkg: Package, viewRow: nat)
    requires t.needsRender && t.size.width > 0 && viewRow < t.size.height
    ensures var abs := viewRow + t.scrollOffset.lineIndex;
            var count := LineCount(t.buffer);
            var row := Render(t, pkg).frame.value[viewRow];
            && (abs < count ==>
                  var line := t.buffer.lines[abs];
                  row == PiecesText(VisiblePieces(line, RowRange(t, line))))
            && (abs < count && Addressable(t.buffer.lines[abs]) ==>
                  var line := t.buffer.lines[abs];
                  PiecesCells(VisiblePieces(line, RowRange(t, line))) <= t.size.width)
            && (abs >= count ==> |row| <= t.size.width && row[0] == '~')
            && (abs >= count && (count > 0 || viewRow != t.size.height / 3) ==> row == "~")
  {
    RenderRow(t, pkg, viewRow);
    var abs := viewRow + t.scrollOffset.lineIndex;
    if abs < LineCount(t.buffer) && Addressable(t.buffer.lines[abs]) {
      var line := t.buffer.lines[abs];
      VisibleFits(line, RowRange(t, line));
    }
  }

  /** An empty document shows the welcome banner on row `height / 3` and '~'
      on every other row. */
  lemma EmptyDocumentFrame(t: Terminal, pkg: Package)
    requires t.needsRender && t.size.width > 0
    requires LineCount(t.buffer) == 0
    ensures var rows := Render(t, pkg).frame.value;
            forall i | 0 <= i < t.size.height ::
              rows[i] == if i == t.size.height / 3 then WelcomeMessage(pkg, t.size.width) else "~"
  {
  }

  /** On a line of half-width graphemes, a row shows exactly the graphemes in
      columns `left` to `left + width` of its line, each drawn whole. */
  lemma HalfWidthRow(t: Terminal, pkg: Package, viewRow: nat)
    requires t.needsRender && t.size.width > 0 && viewRow < t.size.height
    requires viewRow + t.scrollOffset.lineIndex < LineCount(t.buffer)
    requires AllHalf(t.buffer.lines[viewRow + t.scrollOffset.lineIndex].fragments)
    requires GraphemeCount(t.buffer.lines[viewRow + t.scrollOffset.lineIndex]) <= USIZE_MAX
    ensures var line := t.buffer.lines[viewRow + t.scrollOffset.lineIndex];
            var n := GraphemeCount(line);
            var left := t.scrollOffset.graphemeIndex;
            && Min(left, n) <= Min(left + t.size.width, n)
            && Render(t, pkg).frame.value[viewRow] ==
               PiecesText(ShownAll(line.fragments[Min(left, n)..Min(left + t.size.width, n)]))
  {
    var line := t.buffer.lines[viewRow + t.scrollOffset.lineIndex];
    var n := GraphemeCount(line);
    var range := RowRange(t, line);
    RenderRow(t, pkg, viewRow);
    if range.start < range.end {
      HalfWidthWindow(line, range);
    } else {
      assert Min(range.start, n) == n;
      assert line.fragments[n..n] == [];
    }
  }
}

=== FILE: terminal_command.dfy ===
/** The command decoder of `src/view/terminal_command.rs`: a total, pure
    classification of terminal events into editor commands. */
module Commands {
  import opened Base
  import opened View

  type u8 = x: nat | x < 0x100
  type u16 = x: nat | x < 0x1_0000

  /** The key codes a terminal key event carries (crossterm's `KeyCode`; the
      payloads of the media and modifier keys play no part here). */
  datatype KeyCode =
    | Backspace | Enter | Left | Right | Up | Down | Home | End | PageUp | PageDown
    | Tab | BackTab | Delete | Insert | F(n: u8) | Char(c: char) | Null | Esc
    | CapsLock | ScrollLock | NumLock | PrintScreen | Pause | Menu | KeypadBegin
    | Media | Modifier

  /** Modifier keys held during a key event (crossterm's `KeyModifiers` flags). */
  datatype KeyModifier = Shift | Control | Alt | Super | Hyper | Meta

  /** A terminal event (crossterm's `Event`); key events keep only the fields
      the decoder reads. */
  datatype Event =
    | FocusGained
    | FocusLost
    | Key(code: KeyCode, modifiers: set<KeyModifier>)
    | Mouse
    | Paste(text: string)
    | Resize(columns: u16, rows: u16)

  datatype Direction = Up | Down | Left | Right | PageUp | PageDown | Home | End

  datatype SpecialKey = Backspace | Delete | Enter | Tab | BackTab | CapsLock | Insert

  datatype TerminalCommand =
    | MoveCaret(direction: Direction)
    | Resize(size: Size)
    | Quit
    | Unknown
    | OrdinaryChar(keyCode: KeyCode)
    | FunctionKey(n: u8)
    | SpecialKey(key: SpecialKey)

  /** Why an event has no command: it is neither a key nor a resize event. */
  datatype DecodeError = UnsupportedEvent(event: Event)

  /** `TryFrom<CrossTermEvent> for TerminalCommand`. */
  function Decode(event: Event): (r: Result<TerminalCommand, DecodeError>)
    ensures r.Ok? <==> event.Key? || event.Resize?
    ensures r.Err? ==> r.error == UnsupportedEvent(event)
  {
    match event
    case Key(code, modifiers) =>
      Ok(match code
         case Left => MoveCaret(Direction.Left)
         case Right => MoveCaret(Direction.Right)
         case Up => MoveCaret(Direction.Up)
         case Down => MoveCaret(Direction.Down)
         case Home => MoveCaret(Direction.Home)
         case End => MoveCaret(Direction.End)
         case PageUp => MoveCaret(Direction.PageUp)
         case PageDown => MoveCaret(Direction.PageDown)
         case Char(c) =>
           if c == 'q' && Control in modifiers then Quit else OrdinaryChar(KeyCode.Char(c))
         case F(n) => if 1 <= n <= 12 then FunctionKey(n) else Unknown
         case Backspace => SpecialKey(SpecialKey.Backspace)
         case Delete => SpecialKey(SpecialKey.Delete)
         case Enter => SpecialKey(SpecialKey.Enter)
         case Tab => SpecialKey(SpecialKey.Tab)
         case BackTab => SpecialKey(SpecialKey.BackTab)
         case CapsLock => SpecialKey(SpecialKey.CapsLock)
         case Insert => SpecialKey(SpecialKey.Insert)
         case _ => Unknown)
    case Resize(columns, rows) => Ok(TerminalCommand.Resize(Size(columns, rows)))
    case _ => Err(UnsupportedEvent(event))
  }

  /** `KeyCode::as_char` */
  function AsChar(code: KeyCode): (r: Option<char>)
    ensures r.Some? <==> code.Char?
    ensures r.Some? ==> r.value == code.c
  {
    match code
    case Char(c) => Some(c)
    case _ => None
  }

  /** The key code of each caret direction. */
  function DirectionKey(d: Direction): KeyCode {
    match d
    case Up => KeyCode.Up
    case Down => KeyCode.Down
    case Left => KeyCode.Left
    case Right => KeyCode.Right
    case PageUp => KeyCode.PageUp
    case PageDown => KeyCode.PageDown
    case Home => KeyCode.Home
    case End => KeyCode.End
  }

  /** The key code of each special key. */
  function SpecialKeyCode(k: SpecialKey): KeyCode {
    match k
    case Backspace => KeyCode.Backspace
    case Delete => KeyCode.Delete
    case Enter => KeyCode.Enter
    case Tab => KeyCode.Tab
    case BackTab => KeyCode.BackTab
    case CapsLock => KeyCode.CapsLock
    case Insert => KeyCode.Insert
  }

  /** An event producing `cmd`, for the commands the decoder can produce. */
  function Encode(cmd: TerminalCommand): Option<Event> {
    match cmd
    case MoveCaret(d) => Some(Key(DirectionKey(d), {}))
    case Resize(size) =>
      if size.width < 0x1_0000 && size.height < 0x1_0000 then Some(Event.Resize(size.width, size.height)) else None
    case Quit => Some(Key(KeyCode.Char('q'), {Control}))
    case Unknown => Some(Key(Esc, {}))
    case OrdinaryChar(code) => if code.Char? then Some(Key(code, {})) else None
    case FunctionKey(n) => if 1 <= n <= 12 then Some(Key(F(n), {})) else None
    case SpecialKey(k) => Some(Key(SpecialKeyCode(k), {}))
  }

  /** Decoding inverts encoding: every command that has an event decodes back
      from it, and the commands without one are exactly those no event
      decodes to. */
  lemma DecodeEncode(cmd: TerminalCommand)
    ensures Encode(cmd).Some? ==> Decode(Encode(cmd).value) == Ok(cmd)
    ensures Encode(cmd).None? ==> forall e: Event :: Decode(e) != Ok(cmd)
  {
  }

  /** Control+'q' quits, and it is the only event that does. */
  lemma DecodeQuit(e: Event)
    ensures Decode(e) == Ok(Quit) <==> e.Key? && e.code == KeyCode.Char('q') && Control in e.modifiers
  {
  }

  /** Any other character, including a plain 'q' and characters typed with
      other modifiers, is ordinary typing of that character. */
  lemma DecodeOrdinaryChar(e: Event, c: char)
    ensures Decode(e) == Ok(OrdinaryChar(KeyCode.Char(c))) <==>
            e.Key? && e.code == KeyCode.Char(c) && !(c == 'q' && Control in e.modifiers)
  {
  }

  /** F1 to F12 are function keys; any other F key is unknown. */
  lemma DecodeFunctionKey(e: Event, n: u8)
    ensures Decode(e) == Ok(FunctionKey(n)) <==> e.Key? && e.code == F(n) && 1 <= n <= 12
    ensures e.Key? && e.code == F(n) && !(1 <= n <= 12) ==> Decode(e) == Ok(Unknown)
  {
  }

  /** The eight caret keys move the caret in their own direction, whatever the
      modifiers. */
  lemma DecodeMoveCaret(e: Event, d: Direction)
    ensures Decode(e) == Ok(MoveCaret(d)) <==> e.Key? && e.code == DirectionKey(d)
  {
  }

  /** The seven special keys decode to themselves, whatever the modifiers. */
  lemma DecodeSpecialKey(e: Event, k: SpecialKey)
    ensures Decode(e) == Ok(SpecialKey(k)) <==> e.Key? && e.code == SpecialKeyCode(k)
  {
  }

  /** A resize event carries its columns and rows as the new width and height. */
  lemma DecodeResize(e: Event, size: Size)
    ensures Decode(e) == Ok(TerminalCommand.Resize(size)) <==>
            e.Resize? && e.columns == size.width && e.rows == size.height
  {
  }
}

=== FILE: view.dfy ===
/** The grapheme line model of `src/view.rs`: document and screen coordinates,
    the fragments a line is made of, their rendered width and substitution
    glyphs, the character-level edits, and the horizontal window used when a
    line is drawn. */
module View {
  import opened Base
  import opened Segmentation

  /** Absolute coordinates in the document, measured in graphemes. */
  datatype Location = Location(lineIndex: nat, graphemeIndex: nat)

  /** Coordinates of a cell of the rendered viewport. */
  datatype Position = Position(x: nat, y: nat)

  /** Viewport dimensions in cells. */
  datatype Size = Size(width: nat, height: nat)

  /** `Location::to_position`: the screen cell of a document location, given the
      location that is currently drawn in the top-left cell. Each coordinate is
      the difference, saturating at zero. */
  function ToPosition(loc: Location, scrollOffset: Location): (p: Position)
    ensures p.x <= loc.graphemeIndex && p.y <= loc.lineIndex
    ensures scrollOffset.graphemeIndex <= loc.graphemeIndex ==> p.x + scrollOffset.graphemeIndex == loc.graphemeIndex
    ensures scrollOffset.lineIndex <= loc.lineIndex ==> p.y + scrollOffset.lineIndex == loc.lineIndex
    ensures loc.graphemeIndex <= scrollOffset.graphemeIndex ==> p.x == 0
    ensures loc.lineIndex <= scrollOffset.lineIndex ==> p.y == 0
  {
    Position(SatSub(loc.graphemeIndex, scrollOffset.graphemeIndex),
             SatSub(loc.lineIndex, scrollOffset.lineIndex))
  }

  /** The two width classes a grapheme is rendered with. */
  datatype GraphemeWidth = Half | Full {
    function Cells(): nat {
      if Half? then 1 else 2
    }

    /** `GraphemeWidth::saturating_add`: the first cell after a grapheme of this
        width drawn from cell `value`, clamped at `usize::MAX`. */
    function SaturatingAdd(value: usize): (r: usize)
      ensures value <= r
      ensures value + Cells() <= USIZE_MAX ==> r - value == Cells()
      ensures value + Cells() > USIZE_MAX ==> r == USIZE_MAX
    {
      if value + Cells() > USIZE_MAX then USIZE_MAX else value + Cells()
    }
  }

  /** One grapheme cluster of a line, its width class and the glyph drawn in its
      place, if any. */
  datatype TextFragment = TextFragment(grapheme: string, renderedWidth: GraphemeWidth, replacement: Option<char>)

  /** What the fragment looks like on screen: its replacement, or else its grapheme. */
  function Glyph(f: TextFragment): string {
    match f.replacement
    case Some(c) => [c]
    case None => f.grapheme
  }

  datatype Line = Line(fragments: seq<TextFragment>)

  /*************************************************************************
   * Width and text of a sequence of fragments
   *************************************************************************/

  /** Total number of cells the fragments occupy. */
  function Width(fs: seq<TextFragment>): nat {
    if |fs| == 0 then 0 else fs[0].renderedWidth.Cells() + Width(fs[1..])
  }

  /** The graphemes of the fragments, concatenated in order. */
  function Text(fs: seq<TextFragment>): string {
    if |fs| == 0 then "" else fs[0].grapheme + Text(fs[1..])
  }

  /** The graphemes of the fragments, one string per fragment. */
  function Graphemes(fs: seq<TextFragment>): (gs: seq<string>)
    ensures |gs| == |fs|
    ensures forall i | 0 <= i < |fs| :: gs[i] == fs[i].grapheme
  {
    seq(|fs|, i requires 0 <= i < |fs| => fs[i].grapheme)
  }

  predicate AllHalf(fs: seq<TextFragment>) {
    forall i | 0 <= i < |fs| :: fs[i].renderedWidth == Half
  }

  predicate AllFull(fs: seq<TextFragment>) {
    forall i | 0 <= i < |fs| :: fs[i].renderedWidth == Full
  }

  lemma {:induction false} WidthAppend(a: seq<TextFragment>, b: seq<TextFragment>)
    ensures Width(a + b) == Width(a) + Width(b)
  {
    if |a| > 0 {
      assert (a + b)[1..] == a[1..] + b;
      WidthAppend(a[1..], b);
    } else {
      assert a + b == b;
    }
  }

  /** The cell at which fragment `i` starts is the width of the fragments before it. */
  lemma WidthPrefixStep(fs: seq<TextFragment>, i: nat)
    requires i < |fs|
    ensures Width(fs[..i + 1]) == Width(fs[..i]) + fs[i].renderedWidth.Cells()
    ensures Width(fs[..i + 1]) <= Width(fs)
  {
    assert fs[..i + 1] == fs[..i] + [fs[i]];
    WidthAppend(fs[..i], [fs[i]]);
    assert fs == fs[..i + 1] + fs[i + 1..];
    WidthAppend(fs[..i + 1], fs[i + 1..]);
  }

  lemma WidthPrefix(fs: seq<TextFragment>, i: nat)
    requires i <= |fs|
    ensures Width(fs[..i]) + Width(fs[i..]) == Width(fs)
  {
    assert fs == fs[..i] + fs[i..];
    WidthAppend(fs[..i], fs[i..]);
  }

  lemma {:induction false} TextAppend(a: seq<TextFragment>, b: seq<TextFragment>)
    ensures Text(a + b) == Text(a) + Text(b)
  {
    if |a| > 0 {
      assert (a + b)[1..] == a[1..] + b;
      TextAppend(a[1..], b);
    } else {
      assert a + b == b;
    }
  }

  lemma TextSplit(fs: seq<TextFragment>, k: nat)
    requires k <= |fs|
    ensures Text(fs) == Text(fs[..k]) + Text(fs[k..])
  {
    assert fs == fs[..k] + fs[k..];
    TextAppend(fs[..k], fs[k..]);
  }

  /** The text of the fragments is the concatenation of their graphemes. */
  lemma {:induction false} TextIsConcat(fs: seq<TextFragment>)
    ensures Text(fs) == Concat(Graphemes(fs))
  {
    if |fs| > 0 {
      assert Graphemes(fs)[1..] == Graphemes(fs[1..]);
      TextIsConcat(fs[1..]);
    }
  }

  /*************************************************************************
   * Line: count, width, display
   *************************************************************************/

  /** `Line::grapheme_count` */
  function GraphemeCount(l: Line): nat {
    |l.fragments|
  }

  /** `Line::graphemes_width`: one cell per half-width and two per full-width
      fragment, so between the count and twice the count; the count exactly
      when every fragment is half width, twice it when every one is full width. */
  function GraphemesWidth(l: Line): (w: nat)
    ensures GraphemeCount(l) <= w <= 2 * GraphemeCount(l)
    ensures w == GraphemeCount(l) <==> AllHalf(l.fragments)
    ensures w == 2 * GraphemeCount(l) <==> AllFull(l.fragments)
  {
    WidthBounds(l.fragments);
    Width(l.fragments)
  }

  /** `Display for Line`: the graphemes of the line, in order. */
  function ToString(l: Line): string {
    Text(l.fragments)
  }

  /** A line whose cell positions fit in a `usize`, which every line held in
      memory does. */
  predicate Addressable(l: Line) {
    GraphemesWidth(l) <= USIZE_MAX
  }

  /** Every fragment takes one or two cells; a line is exactly as wide as it
      has graphemes iff all of them are half width, and twice as wide iff all
      of them are full width. */
  lemma {:induction false} WidthBounds(fs: seq<TextFragment>)
    ensures |fs| <= Width(fs) <= 2 * |fs|
    ensures Width(fs) == |fs| <==> AllHalf(fs)
    ensures Width(fs) == 2 * |fs| <==> AllFull(fs)
  {
    if |fs| > 0 {
      WidthBounds(fs[1..]);
      assert AllHalf(fs) <==> fs[0].renderedWidth == Half && AllHalf(fs[1..]) by {
        if AllHalf(fs) {
          forall i | 0 <= i < |fs[1..]| ensures fs[1..][i].renderedWidth == Half {
            assert fs[1..][i] == fs[i + 1];
          }
        }
        if fs[0].renderedWidth == Half && AllHalf(fs[1..]) {
          forall i | 0 <= i < |fs| ensures fs[i].renderedWidth == Half {
            if i > 0 { assert fs[i] == fs[1..][i - 1]; }
          }
        }
      }
      assert AllFull(fs) <==> fs[0].renderedWidth == Full && AllFull(fs[1..]) by {
        if AllFull(fs) {
          forall i | 0 <= i < |fs[1..]| ensures fs[1..][i].renderedWidth == Full {
            assert fs[1..][i] == fs[i + 1];
          }
        }
        if fs[0].renderedWidth == Full && AllFull(fs[1..]) {
          forall i | 0 <= i < |fs| ensures fs[i].renderedWidth == Full {
            if i > 0 { assert fs[i] == fs[1..][i - 1]; }
          }
        }
      }
    }
  }

  /*************************************************************************
   * From<&str> for Line
   *************************************************************************/

  /** The substitution and width rules a fragment built from text obeys:
      - a tab is drawn as a half-width space;
      - a cluster of positive width made only of white space is drawn as a
        half-width '␣';
      - a lone zero-width control character is drawn as a half-width '▯';
      - anything else is drawn as itself, half width when its measured width
        is 0 or 1 and full width otherwise. */
  predicate WellFormedFragment(u: Unicode, f: TextFragment) {
    var g := f.grapheme;
    var w := u.width(g);
    && (f.replacement.Some? ==> f.renderedWidth == Half && f.replacement.value in {' ', '␣', '▯'})
    && (f.replacement.None? ==> (f.renderedWidth == Half <==> w <= 1))
    && (f.replacement == Some(' ') <==> g == "\t")
    && (f.replacement == Some('␣') <==> g != "\t" && w > 0 && IsBlank(u, g))
    && (f.replacement == Some('▯') <==> g != "\t" && w == 0 && |g| == 1 && u.isControl(g[0]))
  }

  /** The fragment `From<&str> for Line` builds for one grapheme cluster. */
  function Classify(u: Unicode, g: string): (f: TextFragment)
    ensures f.grapheme == g
    ensures WellFormedFragment(u, f)
  {
    var w := u.width(g);
    if g == "\t" then TextFragment(g, Half, Some(' '))
    else if w > 0 && IsBlank(u, g) then TextFragment(g, Half, Some('␣'))
    else if w == 0 && |g| == 1 && u.isControl(g[0]) then TextFragment(g, Half, Some('▯'))
    else TextFragment(g, if w <= 1 then Half else Full, None)
  }

  /** `From<&str> for Line`: one fragment per grapheme cluster, in input order. */
  function FromStr(u: Unicode, s: string): (l: Line)
    ensures Graphemes(l.fragments) == u.graphemes(s)
    ensures forall i | 0 <= i < |l.fragments| :: WellFormedFragment(u, l.fragments[i])
  {
    var gs := u.graphemes(s);
    Line(seq(|gs|, i requires 0 <= i < |gs| => Classify(u, gs[i])))
  }

  /** Round trip: displaying the line built from `s` gives back `s`. */
  lemma DisplayFromStr(u: Unicode, s: string)
    requires ValidSegmentation(u)
    ensures ToString(FromStr(u, s)) == s
  {
    TextIsConcat(FromStr(u, s).fragments);
  }

  /** The round trip for a segmentation that may or may not obey the law. */
  lemma DisplayFromStrWhenValid(u: Unicode, s: string)
    ensures ValidSegmentation(u) ==> ToString(FromStr(u, s)) == s
  {
    if ValidSegmentation(u) {
      DisplayFromStr(u, s);
    }
  }

  /** `Line::from("")` is the line without fragments. */
  lemma FromEmpty(u: Unicode)
    requires ValidSegmentation(u)
    ensures FromStr(u, "") == Line([])
  {
    SegmentEmpty(u);
  }

  /*************************************************************************
   * Character-level edits
   *************************************************************************/

  /** The loop of `Line::insert_char`: the graphemes of `fs`, whose first
      element has index `index`, with `c` written before the one numbered `at`. */
  function InsertScan(fs: seq<TextFragment>, c: char, at: nat, index: nat): string {
    if |fs| == 0 then ""
    else (if index == at then [c] else "") + fs[0].grapheme + InsertScan(fs[1..], c, at, index + 1)
  }

  lemma {:induction false} InsertScanText(fs: seq<TextFragment>, c: char, at: nat, index: nat)
    ensures InsertScan(fs, c, at, index) ==
            if index <= at < index + |fs| then Text(fs[..at - index]) + [c] + Text(fs[at - index..])
            else Text(fs)
  {
    if |fs| > 0 {
      InsertScanText(fs[1..], c, at, index + 1);
      var rest := InsertScan(fs[1..], c, at, index + 1);
      if index == at {
        assert InsertScan(fs, c, at, index) == [c] + fs[0].grapheme + rest;
        assert rest == Text(fs[1..]);
        assert fs[..0] == [] && fs[0..] == fs;
      } else if index < at < index + |fs| {
        var k := at - index;
        assert InsertScan(fs, c, at, index) == fs[0].grapheme + rest;
        assert rest == Text(fs[1..][..k - 1]) + [c] + Text(fs[1..][k - 1..]);
        assert fs[..k][0] == fs[0] && fs[..k][1..] == fs[1..][..k - 1];
        assert Text(fs[..k]) == fs[0].grapheme + Text(fs[1..][..k - 1]);
        assert fs[1..][k - 1..] == fs[k..];
      } else {
        assert InsertScan(fs, c, at, index) == fs[0].grapheme + rest;
        assert rest == Text(fs[1..]);
      }
    }
  }

  /** The text `insert_char(c, at)` rebuilds: the first `k` graphemes, then
      `c`, then the rest, where `k` is `at` cut to the number of graphemes. */
  lemma InsertedText(l: Line, c: char, at: nat)
    ensures var k := Min(at, GraphemeCount(l));
            InsertScan(l.fragments, c, at, 0) + (if at >= |l.fragments| then [c] else "")
            == Text(l.fragments[..k]) + [c] + Text(l.fragments[k..])
  {
    var fs := l.fragments;
    InsertScanText(fs, c, at, 0);
    if at >= |fs| {
      assert fs[..|fs|] == fs;
      assert fs[|fs|..] == [];
    }
  }

  /** `Line::insert_char`: the text rebuilt with `c` inserted and segmented
      again. Under the segmentation law the new text is the first `at`
      graphemes, then `c`, then the rest; an index at or past the end appends
      `c`. */
  function InsertChar(u: Unicode, l: Line, c: char, at: nat): (r: Line)
    ensures Graphemes(r.fragments) ==
            u.graphemes(InsertScan(l.fragments, c, at, 0) + (if at >= |l.fragments| then [c] else ""))
    ensures forall i | 0 <= i < |r.fragments| :: WellFormedFragment(u, r.fragments[i])
    ensures var k := Min(at, GraphemeCount(l));
            ValidSegmentation(u) ==> ToString(r) == Text(l.fragments[..k]) + [c] + Text(l.fragments[k..])
  {
    var text := InsertScan(l.fragments, c, at, 0) + (if at >= |l.fragments| then [c] else "");
    InsertedText(l, c, at);
    DisplayFromStrWhenValid(u, text);
    FromStr(u, text)
  }

  /** The loop of `Line::delete`: the graphemes of `fs` except the one numbered `at`. */
  function DeleteScan(fs: seq<TextFragment>, at: nat, index: nat): string {
    if |fs| == 0 then ""
    else (if index != at then fs[0].grapheme else "") + DeleteScan(fs[1..], at, index + 1)
  }

  lemma {:induction false} DeleteScanText(fs: seq<TextFragment>, at: nat, index: nat)
    ensures DeleteScan(fs, at, index) ==
            if index <= at < index + |fs| then Text(fs[..at - index]) + Text(fs[at - index + 1..])
            else Text(fs)
  {
    if |fs| > 0 {
      DeleteScanText(fs[1..], at, index + 1);
      var rest := DeleteScan(fs[1..], at, index + 1);
      if index == at {
        assert DeleteScan(fs, at, index) == rest == Text(fs[1..]);
        assert fs[..0] == [];
      } else if index < at < index + |fs| {
        var k := at - index;
        assert DeleteScan(fs, at, index) == fs[0].grapheme + rest;
        assert rest == Text(fs[1..][..k - 1]) + Text(fs[1..][k..]);
        assert fs[..k][0] == fs[0] && fs[..k][1..] == fs[1..][..k - 1];
        assert Text(fs[..k]) == fs[0].grapheme + Text(fs[1..][..k - 1]);
        assert fs[1..][k..] == fs[k + 1..];
      } else {
        assert DeleteScan(fs, at, index) == fs[0].grapheme + rest;
        assert rest == Text(fs[1..]);
      }
    }
  }

  /** `Line::delete`: the text without grapheme `at`, segmented again. Under
      the segmentation law the new text is every grapheme but number `at`, and
      an index past the end leaves the text as it was. */
  function Delete(u: Unicode, l: Line, at: nat): (r: Line)
    ensures Graphemes(r.fragments) == u.graphemes(DeleteScan(l.fragments, at, 0))
    ensures forall i | 0 <= i < |r.fragments| :: WellFormedFragment(u, r.fragments[i])
    ensures ValidSegmentation(u) && at < GraphemeCount(l) ==>
              ToString(r) == Text(l.fragments[..at]) + Text(l.fragments[at + 1..])
    ensures ValidSegmentation(u) && at >= GraphemeCount(l) ==> ToString(r) == ToString(l)
  {
    DeleteScanText(l.fragments, at, 0);
    DisplayFromStrWhenValid(u, DeleteScan(l.fragments, at, 0));
    FromStr(u, DeleteScan(l.fragments, at, 0))
  }

  /** Segmenting the text with `c` inserted at grapheme `at` keeps every old
      grapheme and makes `c` a grapheme of its own. */
  predicate KeepsInsertedAlone(u: Unicode, l: Line, c: char, at: nat)
    requires at <= GraphemeCount(l)
  {
    var fs := l.fragments;
    u.graphemes(Text(fs[..at]) + [c] + Text(fs[at..])) == Graphemes(fs[..at]) + [[c]] + Graphemes(fs[at..])
  }

  /** Deleting grapheme `|p|` of a line whose graphemes are those of `p`, then
      one more, then those of `q` leaves the text of `p` and `q`. */
  lemma DeleteBetween(u: Unicode, m: Line, p: seq<TextFragment>, g: string, q: seq<TextFragment>)
    requires ValidSegmentation(u)
    requires Graphemes(m.fragments) == Graphemes(p) + [g] + Graphemes(q)
    ensures ToString(Delete(u, m, |p|)) == Text(p) + Text(q)
  {
    var nfs := m.fragments;
    var at := |p|;
    assert Graphemes(nfs[..at]) == Graphemes(p);
    assert Graphemes(nfs[at + 1..]) == Graphemes(q);
    TextIsConcat(nfs[..at]);
    TextIsConcat(p);
    TextIsConcat(nfs[at + 1..]);
    TextIsConcat(q);
  }

  /** Deleting at the index where a character was just inserted restores the
      text, provided segmentation keeps the inserted character apart. */
  lemma InsertThenDelete(u: Unicode, l: Line, c: char, at: nat)
    requires ValidSegmentation(u)
    requires at <= GraphemeCount(l)
    requires KeepsInsertedAlone(u, l, c, at)
    ensures ToString(Delete(u, InsertChar(u, l, c, at), at)) == ToString(l)
  {
    var fs := l.fragments;
    InsertedText(l, c, at);
    assert |fs[..at]| == at;
    DeleteBetween(u, InsertChar(u, l, c, at), fs[..at], [c], fs[at..]);
    TextSplit(fs, at);
  }

  /** `Line::append`: the other line's fragments follow this line's, unchanged. */
  function Append(l: Line, other: Line): (r: Line)
    ensures GraphemeCount(r) == GraphemeCount(l) + GraphemeCount(other)
    ensures GraphemesWidth(r) == GraphemesWidth(l) + GraphemesWidth(other)
    ensures ToString(r) == ToString(l) + ToString(other)
    ensures r.fragments[..GraphemeCount(l)] == l.fragments
    ensures r.fragments[GraphemeCount(l)..] == other.fragments
  {
    WidthAppend(l.fragments, other.fragments);
    TextAppend(l.fragments, other.fragments);
    Line(l.fragments + other.fragments)
  }

  /** `Line::split`: the line keeps its first `at` fragments and the rest is
      returned; an index past the end returns an empty line and keeps the
      line whole. Appending the returned line undoes the split. */
  function Split(l: Line, at: nat): (r: (Line, Line))
    ensures at > GraphemeCount(l) ==> r.0 == l && r.1 == Line([])
    ensures at <= GraphemeCount(l) ==> GraphemeCount(r.0) == at && Append(r.0, r.1) == l
  {
    if at > |l.fragments| then (l, Line([]))
    else
      assert l.fragments[..at] + l.fragments[at..] == l.fragments;
      (Line(l.fragments[..at]), Line(l.fragments[at..]))
  }

  /*************************************************************************
   * Line::get_visible_graphemes
   *************************************************************************/

  /** `Range<usize>` of cells. */
  datatype CellRange = CellRange(start: nat, end: nat)

  /** What is drawn for one fragment: an ellipsis for a clipped fragment, or
      the fragment's glyph. */
  datatype Piece = Ellipsis | Shown(fragment: TextFragment)

  function PieceText(p: Piece): string {
    match p
    case Ellipsis => "⋯"
    case Shown(f) => Glyph(f)
  }

  /** Cells a drawn piece takes: an ellipsis one, a glyph its fragment's width. */
  function PieceCells(p: Piece): nat {
    match p
    case Ellipsis => 1
    case Shown(f) => f.renderedWidth.Cells()
  }

  function PiecesText(ps: seq<Piece>): string {
    if |ps| == 0 then "" else PieceText(ps[0]) + PiecesText(ps[1..])
  }

  function PiecesCells(ps: seq<Piece>): nat {
    if |ps| == 0 then 0 else PieceCells(ps[0]) + PiecesCells(ps[1..])
  }

  /** Every fragment drawn whole, in order. */
  function ShownAll(fs: seq<TextFragment>): (ps: seq<Piece>)
    ensures |ps| == |fs|
    ensures forall i | 0 <= i < |fs| :: ps[i] == Shown(fs[i])
  {
    seq(|fs|, i requires 0 <= i < |fs| => Shown(fs[i]))
  }

  /** The rule applied to a fragment occupying cells `[start, end)` for the
      window `[lo, hi)`: nothing when it ends at or before the window, an
      ellipsis when it sticks out of either edge, its glyph otherwise. */
  function ClipPiece(f: TextFragment, start: nat, end: nat, lo: nat, hi: nat): seq<Piece> {
    if end <= lo then []
    else if start < lo || end > hi then [Ellipsis]
    else [Shown(f)]
  }

  /** The loop of `get_visible_graphemes`, with the scan stopping at the first
      fragment that starts at or after the right edge. */
  function Scan(fs: seq<TextFragment>, start: usize, lo: nat, hi: nat): seq<Piece> {
    if |fs| == 0 || start >= hi then []
    else
      var end := fs[0].renderedWidth.SaturatingAdd(start);
      ClipPiece(fs[0], start, end, lo, hi) + Scan(fs[1..], end, lo, hi)
  }

  /** The loop of `get_visible_graphemes` as written: the scan stops only at a
      fragment starting strictly after the right edge. */
  function ScanAsWritten(fs: seq<TextFragment>, start: usize, lo: nat, hi: nat): seq<Piece> {
    if |fs| == 0 || start > hi then []
    else
      var end := fs[0].renderedWidth.SaturatingAdd(start);
      ClipPiece(fs[0], start, end, lo, hi) + ScanAsWritten(fs[1..], end, lo, hi)
  }

  /** The pieces drawn for the cell window `range` of a line. */
  function VisiblePieces(l: Line, range: CellRange): (ps: seq<Piece>)
    ensures range.start >= range.end ==> ps == []
  {
    if range.start >= range.end then [] else Scan(l.fragments, 0, range.start, range.end)
  }

  /** `Line::get_visible_graphemes` (with the right-edge test corrected). */
  function GetVisibleGraphemes(l: Line, range: CellRange): (r: string)
    ensures range.start >= range.end ==> r == ""
  {
    PiecesText(VisiblePieces(l, range))
  }

  function VisiblePiecesAsWritten(l: Line, range: CellRange): (ps: seq<Piece>)
    ensures range.start >= range.end ==> ps == []
  {
    if range.start >= range.end then [] else ScanAsWritten(l.fragments, 0, range.start, range.end)
  }

  /** `Line::get_visible_graphemes` exactly as written. */
  function GetVisibleGraphemesAsWritten(l: Line, range: CellRange): (r: string)
    ensures range.start >= range.end ==> r == ""
  {
    PiecesText(VisiblePiecesAsWritten(l, range))
  }

  lemma {:induction false} PiecesCellsAppend(a: seq<Piece>, b: seq<Piece>)
    ensures PiecesCells(a + b) == PiecesCells(a) + PiecesCells(b)
  {
    if |a| > 0 {
      assert (a + b)[1..] == a[1..] + b;
      PiecesCellsAppend(a[1..], b);
    } else {
      assert a + b == b;
    }
  }

  /** Reference definition of the window, fragment by fragment with absolute
      cell positions: fragment `i` occupies `[Width(fs[..i]), Width(fs[..i+1]))`
      and contributes `ClipPiece` if it starts before the right edge. */
  function WindowFrom(fs: seq<TextFragment>, i: nat, lo: nat, hi: nat): seq<Piece>
    requires i <= |fs|
    decreases |fs| - i
  {
    if i == |fs| then []
    else
      (if Width(fs[..i]) < hi then ClipPiece(fs[i], Width(fs[..i]), Width(fs[..i + 1]), lo, hi) else [])
      + WindowFrom(fs, i + 1, lo, hi)
  }

  lemma {:induction false} WindowFromPastEdge(fs: seq<TextFragment>, i: nat, lo: nat, hi: nat)
    requires i <= |fs|
    requires Width(fs[..i]) >= hi
    ensures WindowFrom(fs, i, lo, hi) == []
    decreases |fs| - i
  {
    if i < |fs| {
      WidthPrefixStep(fs, i);
      WindowFromPastEdge(fs, i + 1, lo, hi);
    }
  }

  lemma {:induction false} ScanMatchesWindow(fs: seq<TextFragment>, i: nat, lo: nat, hi: nat)
    requires i <= |fs|
    requires Width(fs) <= USIZE_MAX
    ensures Width(fs[..i]) <= USIZE_MAX
    ensures Scan(fs[i..], Width(fs[..i]), lo, hi) == WindowFrom(fs, i, lo, hi)
    decreases |fs| - i
  {
    WidthPrefix(fs, i);
    if i < |fs| {
      var start := Width(fs[..i]);
      if start >= hi {
        WindowFromPastEdge(fs, i, lo, hi);
      } else {
        WidthPrefixStep(fs, i);
        assert fs[i..][0] == fs[i];
        assert fs[i..][1..] == fs[i + 1..];
        ScanMatchesWindow(fs, i + 1, lo, hi);
      }
    }
  }

  /** The window drawn by `get_visible_graphemes` is the reference, fragment
      by fragment: fragments ending at or before the left edge and fragments
      starting at or after the right edge contribute nothing, a fragment lying
      inside contributes its glyph and one crossing an edge an ellipsis. */
  lemma VisibleIsWindow(l: Line, range: CellRange)
    requires Addressable(l)
    requires range.start < range.end
    ensures VisiblePieces(l, range) == WindowFrom(l.fragments, 0, range.start, range.end)
  {
    assert l.fragments[0..] == l.fragments;
    assert l.fragments[..0] == [];
    ScanMatchesWindow(l.fragments, 0, range.start, range.end);
  }

  lemma {:induction false} ScanCells(fs: seq<TextFragment>, start: usize, lo: nat, hi: nat)
    requires lo < hi
    requires start + Width(fs) <= USIZE_MAX
    ensures PiecesCells(Scan(fs, start, lo, hi)) <= SatSub(hi, Max(lo, start))
  {
    if |fs| > 0 && start < hi {
      var end := fs[0].renderedWidth.SaturatingAdd(start);
      var clip := ClipPiece(fs[0], start, end, lo, hi);
      assert end == start + fs[0].renderedWidth.Cells();
      ScanCells(fs[1..], end, lo, hi);
      PiecesCellsAppend(clip, Scan(fs[1..], end, lo, hi));
      if end <= lo {
        assert PiecesCells(clip) == 0;
      } else if start < lo || end > hi {
        assert PiecesCells(clip) == 1;
      } else {
        assert PiecesCells(clip) == end - start;
      }
    }
  }

  /** The window never draws more cells than it is wide. */
  lemma VisibleFits(l: Line, range: CellRange)
    requires Addressable(l)
    ensures PiecesCells(VisiblePieces(l, range)) <= SatSub(range.end, range.start)
  {
    if range.start < range.end {
      ScanCells(l.fragments, 0, range.start, range.end);
    }
  }

  lemma {:induction false} ScanInside(fs: seq<TextFragment>, start: usize, lo: nat, hi: nat)
    requires lo <= start
    requires start + Width(fs) <= hi
    requires start + Width(fs) <= USIZE_MAX
    ensures Scan(fs, start, lo, hi) == ShownAll(fs)
  {
    if |fs| > 0 {
      var end := fs[0].renderedWidth.SaturatingAdd(start);
      ScanInside(fs[1..], end, lo, hi);
      assert ShownAll(fs) == [Shown(fs[0])] + ShownAll(fs[1..]);
    }
  }

  /** A window covering the whole line draws every fragment's glyph, in order,
      with nothing clipped. */
  lemma WholeLineVisible(l: Line)
    requires Addressable(l)
    requires GraphemesWidth(l) > 0
    ensures VisiblePieces(l, CellRange(0, GraphemesWidth(l))) == ShownAll(l.fragments)
  {
    ScanInside(l.fragments, 0, 0, GraphemesWidth(l));
  }

  lemma {:induction false} ScanHalf(fs: seq<TextFragment>, start: usize, lo: nat, hi: nat)
    requires AllHalf(fs)
    requires lo < hi
    requires start + |fs| <= USIZE_MAX
    ensures Min(SatSub(lo, start), |fs|) <= Min(SatSub(hi, start), |fs|)
    ensures Scan(fs, start, lo, hi) == ShownAll(fs[Min(SatSub(lo, start), |fs|)..Min(SatSub(hi, start), |fs|)])
  {
    if |fs| > 0 && start < hi {
      assert fs[0].renderedWidth == Half;
      assert AllHalf(fs[1..]) by {
        forall i | 0 <= i < |fs[1..]| ensures fs[1..][i].renderedWidth == Half {
          assert fs[1..][i] == fs[i + 1];
        }
      }
      var end := start + 1;
      assert fs[0].renderedWidth.SaturatingAdd(start) == end;
      ScanHalf(fs[1..], end, lo, hi);
      var a := Min(SatSub(lo, start), |fs|);
      var b := Min(SatSub(hi, start), |fs|);
      var a' := Min(SatSub(lo, end), |fs| - 1);
      var b' := Min(SatSub(hi, end), |fs| - 1);
      assert b == b' + 1;
      if end > lo {
        assert a == 0;
        assert ClipPiece(fs[0], start, end, lo, hi) == [Shown(fs[0])];
        assert fs[a..b] == [fs[0]] + fs[1..][a'..b'];
        assert ShownAll(fs[a..b]) == [Shown(fs[0])] + ShownAll(fs[1..][a'..b']);
      } else {
        assert a == a' + 1;
        assert ClipPiece(fs[0], start, end, lo, hi) == [];
        assert fs[a..b] == fs[1..][a'..b'];
      }
    }
  }

  /** On a line of half-width graphemes, the window `[lo, hi)` draws exactly
      graphemes `lo` to `hi` (as far as the line reaches), never an ellipsis. */
  lemma HalfWidthWindow(l: Line, range: CellRange)
    requires AllHalf(l.fragments)
    requires |l.fragments| <= USIZE_MAX
    requires range.start < range.end
    ensures var n := GraphemeCount(l);
            Min(range.start, n) <= Min(range.end, n) &&
            VisiblePieces(l, range) == ShownAll(l.fragments[Min(range.start, n)..Min(range.end, n)])
  {
    ScanHalf(l.fragments, 0, range.start, range.end);
  }

  /** The right-edge test as written lets a fragment that starts exactly at the
      right edge through, and it is drawn as an extra ellipsis: the two-letter
      line "ab" viewed through the one-cell window [0, 1) draws "a⋯", two
      cells. */
  lemma AsWrittenOverdraws()
    ensures var ab := Line([TextFragment("a", Half, None), TextFragment("b", Half, None)]);
            && GetVisibleGraphemesAsWritten(ab, CellRange(0, 1)) == "a⋯"
            && PiecesCells(VisiblePiecesAsWritten(ab, CellRange(0, 1))) == 2
            && GetVisibleGraphemes(ab, CellRange(0, 1)) == "a"
  {
    var a := TextFragment("a", Half, None);
    var b := TextFragment("b", Half, None);
    var ab := Line([a, b]);
    assert [a, b][1..] == [b];
    assert [b][1..] == [];
    assert ScanAsWritten([], 2, 0, 1) == [];
    assert ScanAsWritten([b], 1, 0, 1) == [Ellipsis] + ScanAsWritten([], 2, 0, 1);
    assert ScanAsWritten([a, b], 0, 0, 1) == [Shown(a)] + ScanAsWritten([b], 1, 0, 1);
    assert Scan([b], 1, 0, 1) == [];
    assert Scan([a, b], 0, 0, 1) == [Shown(a)] + Scan([b], 1, 0, 1);
    assert PiecesText([Ellipsis]) == "⋯";
    assert PiecesText([Shown(a), Ellipsis]) == "a" + PiecesText([Ellipsis]);
  }
}
